=== FILE: README.md ===
# Storefront core: catalogue views, quote list, site configuration and route guards

This project models in Dafny the client-side core of a small Vue storefront backed by a hosted
Postgres store:

- the public catalogue page (`useCatalogo`): the catalogue fetched by slug, its expiry, the products
  it resolves to, the category menu, and the filtered, searched and sorted product view;
- the quote list (`useListaCotizacion`): a process-wide `Set` of product ids with add, remove,
  toggle, clear, size and array views;
- the site configuration loader (`useSiteConfig`): a process-wide, load-once configuration with a
  `loading` flag that suppresses duplicate queries;
- the router's navigation guards: the global session guard on '/admin', the public layout's
  configuration hook, and the '/admin' index redirect.

Each composable's state is an immutable datatype, and each action is a function from state (and
the store's reply) to the next state. The JavaScript library behaviour the code depends on is
modelled in its own modules:

- `JsString`: `toLowerCase`, `includes`, `startsWith` and the order of the default `sort()`,
  compared on code points;
- `JsArray`: `filter`;
- `JsSet`: an insertion-ordered `Set` (section 24.2 of ECMA-262);
- `StableSort`: the stable comparator `sort` of section 23.1.3 of ECMA-262, modelled as insertion
  sort. It is proved to return a permutation of its input that is ordered, and stable whenever the
  comparator is consistent.

The store, the clock, `localeCompare` and the session lookup are parameters:

- the store's answer is a reply value passed to the fetch functions;
- the instant at which `isExpired` was last recomputed is an `int` argument;
- `localeCompare` is an abstract comparator;
- the session is a `bool`.

Two findings are logged below. Each has an as-written model with a counterexample and a corrected
model with its intended property proved.

## Model

| member | source | states |
|---|---|---|
| Catalogo.IsExpired | src/composables/useCatalogo.js:23-26 | No catalogue, or no expiry date, is never expired; otherwise the catalogue is expired exactly when its expiry instant is strictly before `now`. |
| Catalogo.ExpiryIsPermanent | src/composables/useCatalogo.js:23-26 | Once expired, a catalogue stays expired at every later instant; a dated catalogue is not yet expired at its own expiry instant. |
| Catalogo.ProductosBase | src/composables/useCatalogo.js:28-33 | No catalogue, or a catalogue without an item list, gives no products. |
| Catalogo.Resolved | src/composables/useCatalogo.js:30-32 | Resolving the items never yields more products than there are items; ResolvedCount and ResolvedAppend state which products, how often and in what order. |
| Catalogo.ResolvedCount | src/composables/useCatalogo.js:30-32 | Each product appears in the base as often as an item linking to it appears in the item list, and is present exactly when such an item is; items with a null product contribute nothing. |
| Catalogo.ResolvedAppend | src/composables/useCatalogo.js:30-32 | Resolving items keeps their order: resolving a concatenation concatenates the results. |
| Catalogo.NonEmptyCategoriesElements | src/composables/useCatalogo.js:37-38 | The categories kept by `filter(Boolean)` are exactly the non-null, non-empty categories of the products. |
| Catalogo.UniqueCategories | src/composables/useCatalogo.js:35-39 | With no products the menu is just 'Todos'; otherwise it holds 'Todos' once plus each distinct non-empty category once (as a multiset), and the whole menu, 'Todos' included, is in code-point order: no later entry is strictly below an earlier one. |
| Catalogo.SortedByCodePoints | src/composables/useCatalogo.js:38 | The default `sort()` leaves no string after one it is strictly below. |
| Catalogo.TodosIsSortedNotPinned | src/composables/useCatalogo.js:38 | 'Todos' has no reserved place: a product of category 'Bebes' yields the menu ['Bebes', 'Todos']. |
| Catalogo.SingleCategory | src/composables/useCatalogo.js:35-39 | With a single category that sorts before 'Todos', the menu is exactly that category followed by 'Todos'. |
| Catalogo.TodosListedTwice | src/composables/useCatalogo.js:38 | As written, a product whose category is 'Todos' makes 'Todos' appear twice in the menu. |
| Catalogo.UniqueCategoriesDistinct | src/composables/useCatalogo.js:35-39 | With the sentinel put into the `Set`, every category including 'Todos' appears exactly once, in code-point order. |
| Catalogo.FilteredAndSortedContents | src/composables/useCatalogo.js:41-59 | A product appears in the view as many times as in the base if it passes the category and search criteria, and not at all otherwise; it is present exactly when it is in the base and passes both. |
| Catalogo.FilteredAndSortedSound | src/composables/useCatalogo.js:43-52 | With a category other than 'Todos' every shown product has exactly that category; with a non-empty term every shown product's lowered name, or lowered non-empty code, contains the lowered term. |
| Catalogo.SearchCallback | src/composables/useCatalogo.js:47-51 | The search callback accepts a product exactly when the lowered term occurs in its lowered name or in its lowered, non-empty code. |
| Catalogo.FiltersSelect | src/composables/useCatalogo.js:42-52 | The two filters together keep exactly the products passing both criteria, in base order. |
| Catalogo.SelectedCount | src/composables/useCatalogo.js:42-52 | The selected products keep each passing product's multiplicity and drop every other product. |
| Catalogo.NoCriteriaKeepsAll | src/composables/useCatalogo.js:43-46 | With 'Todos' and an empty term, the view is a reordering of the whole base. |
| Catalogo.FilterByCategory | src/composables/useCatalogo.js:43-45 | Each product meeting the category criterion is kept as often as it occurs, and every other product is dropped. |
| Catalogo.FilterBySearch | src/composables/useCatalogo.js:46-52 | Each product meeting the search criterion is kept as often as it occurs, and every other product is dropped. |
| Catalogo.FilteredAndSorted | src/composables/useCatalogo.js:41-59 | The view is a reordering of exactly the base products that pass both criteria, taken in base order. |
| Catalogo.SortProductos | src/composables/useCatalogo.js:53-57 | Sorting by any order, known or not, is a permutation of the filtered products. |
| Catalogo.ByNombre | src/composables/useCatalogo.js:54 | The name comparator looks at names only: products with the same names compare the same way whatever their other fields. |
| Catalogo.PrecioAsc | src/composables/useCatalogo.js:55 | A product may come first exactly when its price is not above the other's, and the two tie exactly when the prices are equal. |
| Catalogo.PrecioDesc | src/composables/useCatalogo.js:56 | A product may come first exactly when its price is not below the other's, and the two tie exactly when the prices are equal. |
| Catalogo.PrecioComparatorsConsistent | src/composables/useCatalogo.js:55-56 | The price comparators are consistent: total, transitive, and with mirrored signs, so sorting by them is well defined. |
| Catalogo.ByNombreConsistent | src/composables/useCatalogo.js:54 | A consistent `localeCompare` gives a consistent name comparator. |
| Catalogo.FilteredAndSortedOrder | src/composables/useCatalogo.js:53-58 | 'precio-asc' gives non-decreasing prices, 'precio-desc' non-increasing prices, 'nombre-asc' names in `localeCompare` order, and an unknown order leaves the filtered products in base order. |
| Catalogo.InitialViewShowsAll | src/composables/useCatalogo.js:16-18 | With the initial choices (empty term, 'nombre-asc', 'Todos') the view is a reordering of the whole base, sorted by name whenever `localeCompare` is consistent. |
| Catalogo.FilteredAndSortedStable | src/composables/useCatalogo.js:53-57 | Products that compare equal keep their relative base order under each of the three sorts. |
| Catalogo.PrecioTies | src/composables/useCatalogo.js:55-56 | Two products tie under either price comparator exactly when their prices are equal. |
| Catalogo.StartFetchCatalogo | src/composables/useCatalogo.js:65 | Starting a fetch raises `loading` and leaves the catalogue and the error as they were. |
| Catalogo.CompleteFetchCatalogo | src/composables/useCatalogo.js:72-79 | Whatever the reply, `loading` ends false. |
| Catalogo.FetchCatalogo | src/composables/useCatalogo.js:63-80 | A found row replaces the catalogue and leaves an earlier error in place. A reply with neither data nor error keeps the catalogue and sets the not-found message. A store error, which is how the query reports an unknown slug, keeps the catalogue and records the store's message. `loading` always ends false. |
| Catalogo.FailedFetchKeepsViews | src/composables/useCatalogo.js:72-76 | A failed fetch changes neither the product base nor the expiry verdict. |
| Catalogo.EmptyReplyOnFirstLoad | src/composables/useCatalogo.js:73-78 | On the first load (no catalogue, no error), a reply with neither data nor error leaves no catalogue, `loading` false and the Spanish not-found message. |
| Catalogo.MissingSlugOnFirstLoad | src/composables/useCatalogo.js:71-78 | On the first load (no catalogue, no error), an unknown slug, which the single-row query reports as an error, leaves no catalogue, `loading` false and the store's own message. |
| ListaCotizacion.ListaComoArray | src/composables/useListaCotizacion.js:18 | The array view has no duplicates and holds exactly the ids in the list. |
| ListaCotizacion.TotalProductos | src/composables/useListaCotizacion.js:15 | The count is the number of distinct ids held, and equals the length of the array view. |
| ListaCotizacion.EstaEnLista | src/composables/useListaCotizacion.js:43-45 | An id is in the list exactly when it is one of the Set's elements. |
| ListaCotizacion.AnadirProducto | src/composables/useListaCotizacion.js:26-28 | After adding, the id is in the list and no other id changes membership; adding a present id changes nothing; earlier entries keep their order at the front. |
| ListaCotizacion.QuitarProducto | src/composables/useListaCotizacion.js:34-36 | After removing, the id is absent and no other id changes membership; removing an absent id changes nothing; the count drops by one exactly when the id was present. |
| ListaCotizacion.AlternarProducto | src/composables/useListaCotizacion.js:52-58 | Toggling flips the id's membership and leaves every other id's membership as it was. |
| ListaCotizacion.LimpiarLista | src/composables/useListaCotizacion.js:63-65 | After clearing, no id is in the list and the count is zero. |
| ListaCotizacion.AnadirIdempotent | src/composables/useListaCotizacion.js:26-28 | Adding the same id twice is the same as adding it once. |
| ListaCotizacion.AnadirAppends | src/composables/useListaCotizacion.js:26-28 | Adding a new id puts it last in the array view and raises the count by one. |
| ListaCotizacion.QuitarKeepsOrder | src/composables/useListaCotizacion.js:34-36 | Removing a present id takes out exactly its entry; the other entries keep their relative order. |
| ListaCotizacion.AlternarTwiceSameIds | src/composables/useListaCotizacion.js:52-58 | Toggling twice restores every id's membership. |
| ListaCotizacion.AlternarTwiceAbsent | src/composables/useListaCotizacion.js:52-58 | Toggling an absent id twice restores the list exactly, order included. |
| ListaCotizacion.AlternarTwicePresent | src/composables/useListaCotizacion.js:52-58 | Toggling a present id twice moves it to the end of the array view. |
| ListaCotizacion.AlternarOnEmpty | src/composables/useListaCotizacion.js:52-58 | Toggling on the empty list gives the one-entry list, and toggling again empties it. |
| JsSet.Add | src/composables/useListaCotizacion.js:27 | `add` puts a new value last, keeps a present value where it is, and its elements are the old ones plus the value. |
| JsSet.Delete | src/composables/useListaCotizacion.js:35 | `delete` leaves the old elements minus the value, and shortens the set by one exactly when the value was present. |
| JsSet.DeleteKeepsOrder | src/composables/useListaCotizacion.js:35 | Deleting an absent value changes nothing; deleting a present one removes exactly its entry. |
| JsSet.Size | src/composables/useListaCotizacion.js:15 | `size` is the number of distinct values held. |
| JsSet.DistinctMultiset | src/composables/useCatalogo.js:38 | A duplicate-free sequence, such as a Set's entries, holds each of its elements exactly once. |
| JsSet.FromSeq | src/composables/useCatalogo.js:38 | `new Set(xs)` holds exactly the values of `xs`, and no more entries than `xs` has. |
| JsArray.Filter | src/composables/useCatalogo.js:44 | `filter` never lengthens the array, and keeps only elements the callback accepts. |
| JsArray.FilterCount | src/composables/useCatalogo.js:44 | `filter` keeps every accepted element with its multiplicity and drops every rejected one. |
| JsArray.FilterAppend | src/composables/useCatalogo.js:44 | `filter` keeps the original order: filtering a concatenation concatenates the results. |
| JsString.ToLower | src/composables/useCatalogo.js:47-49 | Lowering keeps the length and lowers each character in place. |
| JsString.StartsWith | src/router/index.js:109 | `startsWith` holds exactly when the prefix is no longer than the string and agrees with it at every position. |
| JsString.Includes | src/composables/useCatalogo.js:49-50 | `includes` is true exactly when the searched string occurs at some index. |
| JsString.IncludesBounds | src/composables/useCatalogo.js:49-50 | The empty string is included everywhere; a longer string is never included. |
| JsString.CodePointLessIrreflexive | src/composables/useCatalogo.js:38 | No string sorts strictly before itself. |
| JsString.CodePointLessAsymmetric | src/composables/useCatalogo.js:38 | Two strings are never each strictly before the other. |
| JsString.CodePointLessTransitive | src/composables/useCatalogo.js:38 | The default sort order is transitive. |
| JsString.CodePointLessTrichotomous | src/composables/useCatalogo.js:38 | Any two distinct strings are ordered one way or the other. |
| JsString.CodePointCompareConsistent | src/composables/useCatalogo.js:38 | The default sort's comparison is consistent: total, transitive, and with mirrored signs. |
| StableSort.SortOrdered | src/composables/useCatalogo.js:53-57 | Sorting with a consistent comparator yields a sequence ordered by it. |
| StableSort.SortStable | src/composables/useCatalogo.js:53-57 | For every element, the elements tied with it appear in the output in their input order. |
| StableSort.Sort | src/composables/useCatalogo.js:53-57 | The output is a permutation of the input. |
| StableSort.InsertOrdered | src/composables/useCatalogo.js:53-57 | One insertion step keeps an ordered sequence ordered. |
| StableSort.InsertTies | src/composables/useCatalogo.js:53-57 | One insertion step appends the inserted element to its ties and moves no earlier tie. |
| SiteConfig.StartFetch | src/composables/useSiteConfig.js:14-17 | A query is issued exactly when the configuration is falsy and no load is running; if one is issued, `loading` rises, and otherwise nothing changes. |
| SiteConfig.CompleteFetch | src/composables/useSiteConfig.js:24-33 | `loading` ends false; a row sets the configuration; a reply with neither data nor error changes nothing; a failure, which is also how the single-row query reports a missing row, keeps the configuration and records the message; an error once set stays set. |
| SiteConfig.FetchConfig | src/composables/useSiteConfig.js:12-34 | When skipped, the state is untouched; otherwise `loading` ends false and a row installs its configuration; a truthy configuration is never replaced; a failure never touches the configuration. |
| SiteConfig.UnsetConfigRefetches | src/composables/useSiteConfig.js:14 | After a fetch that leaves the configuration falsy, the next call queries the store again unless a load was already running. |
| SiteConfig.Step | src/composables/useSiteConfig.js:14-33 | A call issues a query exactly when the guard lets it through and is otherwise a no-op; a reply issues nothing, is ignored with nothing outstanding, and otherwise ends the load. |
| SiteConfig.Run | src/composables/useSiteConfig.js:14-33 | A sequence of events issues at most one query per event. |
| SiteConfig.StepKeepsInvariant | src/composables/useSiteConfig.js:14-33 | Each call or reply keeps at most one query in flight, `loading` true exactly while one is, and none in flight once the configuration is truthy. |
| SiteConfig.OneQueryFromStart | src/composables/useSiteConfig.js:6-8 | The initial module state satisfies the invariant, so over any calls and replies from page load on at most one query is in flight and `loading` is up exactly while one is. |
| SiteConfig.FirstCallsIssueOneQuery | src/composables/useSiteConfig.js:6-17 | From the initial state, any positive number of calls before the first reply issues exactly one query. |
| SiteConfig.RunKeepsInvariant | src/composables/useSiteConfig.js:14-33 | Any interleaving of calls and replies keeps that invariant, so at most one query is ever in flight. |
| SiteConfig.CallsBeforeReplyIssueOneQuery | src/composables/useSiteConfig.js:14-17 | Any number of calls made before the reply issue exactly one query. |
| SiteConfig.CallsWhileBusyDoNothing | src/composables/useSiteConfig.js:14 | Calls made while loading, or once the configuration is truthy, change nothing. |
| SiteConfig.TruthyConfigIsFinal | src/composables/useSiteConfig.js:14 | Once the configuration is truthy, no later call or reply replaces it. |
| SiteConfig.ErrorIsNeverCleared | src/composables/useSiteConfig.js:28-30 | Once an error is recorded, it stays recorded through any later calls and replies. |
| Router.BeforeEach | src/router/index.js:106-114 | The guard only ever redirects to '/login'. |
| Router.AdminNeedsSession | src/router/index.js:109-110 | A path starting with '/admin' is redirected to '/login' without a session and proceeds with one. |
| Router.PublicPathsProceed | src/router/index.js:111-113 | A path not starting with '/admin' proceeds, session or not. |
| Router.PrefixGatesLongerNames | src/router/index.js:109 | The test is a plain prefix test: '/administracion' without a session is redirected too. |
| Router.RedirectTargetProceeds | src/router/index.js:70-79 | '/login' and every '/c/' catalogue path proceed, so the redirect cannot loop. |
| Router.AdminIndexRedirect | src/router/index.js:86 | Only the bare '/admin' path is rewritten; every other path is left alone. |
| Router.AdminIndexStaysGated | src/router/index.js:86 | The '/admin' index goes to '/admin/productos', which is still gated by the session guard. |
| Router.PublicBeforeEnter | src/router/index.js:44-50 | The hook always proceeds; it calls the loader exactly when the configuration is falsy; without a call the state is unchanged; a call while idle leaves `loading` false. |
| Router.HookDoesNotWaitForInFlightQuery | src/router/index.js:44-50 | While another load is running, the hook proceeds with the configuration still unset. |
| Router.MixedCaseAdminPathBypassesGuard | src/router/index.js:109 | As written, '/ADMIN/productos' matches the admin route record but proceeds without a session. |
| Router.MatchesAdminRecord | src/router/index.js:82-100 | The admin record accepts '/admin' followed by one of its children (lines 86-98), with ASCII case folded, at most one trailing '/', and each `:id` a single non-empty segment without '/'. Every accepted path starts, once lowered, with '/admin' followed by the end of the path or a '/'. |
| Router.UpperCaseAdminPathsBypassGuard | src/router/index.js:87-98 | As written, each non-index child route of the admin record (an `:id` child with any one segment), written in lower case after '/ADMIN', matches the record yet proceeds without a session. |
| Router.BeforeEachCaseInsensitive | src/router/index.js:106-114 | The corrected guard, like the original, only ever redirects to '/login'. |
| Router.CaseInsensitiveGuardCoversAdminRecord | src/router/index.js:82-100 | With the prefix compared on the lowered path, every path the admin record matches needs a session, and on lower-case paths the guard agrees with the original one. |
| Router.CaseInsensitiveRedirectTargetProceeds | src/router/index.js:70-79 | Under the corrected guard '/login' and every '/c/' catalogue path, whatever the case of the slug, still proceed, so its redirect cannot loop. |

## Left out

- Vue reactivity is left out: `ref`, `computed` and `onMounted` are not modelled. Each computed value is a function of the current state, and `onMounted` is the caller issuing one fetch.
- The store client (supabaseClient.js) is not modelled. Each query's answer is a reply parameter, and the select strings, slug filter and image rows are not modelled.
- Toasts (useToast.js) are not modelled: they are timers that the core does not use.
- The session lookup (`supabase.auth.getSession`) is a boolean parameter.
- The route table is modelled only through the paths the guards decide on. The view components and layouts are not modelled.
- Catalogo.IsExpired: the expiry instant is an already parsed integer. An expiry string that `Date` cannot parse, or an empty one, is not modelled. `isExpired` is a computed value whose only reactive dependency is the catalogue, and `new Date()` is not tracked, so `now` is the instant of the last recomputation; the verdict does not flip by itself while the page stays open.
- Catalogo.Producto: `precio` is an integer amount. Floating-point prices, and any NaN they could bring into the comparator, are not modelled.
- JsString.ToLower: lowers ASCII letters only, not the whole of Unicode.
- JsString.CodePointLess: a `char` is a Unicode code point, not a UTF-16 code unit, so a character outside the Basic Multilingual Plane is one `char`. The order therefore matches the default `sort()` only for text in which no such character meets one in U+E000..U+FFFF; there the model orders the two the other way.
- Catalogo.ByNombre: `localeCompare` is an abstract parameter. Order and stability are proved only when it is consistent in the sense of section 23.1.3 of ECMA-262: total, transitive, and with `cmp(a, b) < 0` exactly when `cmp(b, a) > 0`. An inconsistent comparator gives an order the language leaves unspecified.
- SiteConfig.CompleteFetch: the store's `single()` reports a missing configuration row as an error, so a missing row records the store's message and leaves the configuration unset. Only a reply with neither an error nor data leaves the error slot untouched, and that reply is modelled as its own case.
- Catalogo.FetchCatalogo: the store's `single()` reports a missing row as an error, so an unknown slug records the store's message, not the Spanish not-found text. That text appears only for a reply with neither an error nor data, which is modelled as its own case.
- The `vistaActiva` grid/list toggle is plain UI state with no logic and is not modelled.
- Console logging in the configuration loader is not modelled.
- The trace model of the configuration loader covers a query that never replies: with no `Reply` event, `loading` stays up and later calls do nothing. No timeout is modelled, and neither is a fetch of the catalogue that never completes.
- Router.MatchesAdminRecord: models the router's default matching only (`sensitive: false`, `strict: false`). Case is folded for ASCII letters only, and percent-decoding of the path is not modelled.
- Router.UpperCaseAdminPathsBypassGuard: covers the non-index children written in lower case after '/ADMIN'. The index '/ADMIN' itself is redirected to '/admin/productos' before any guard runs, so it does not bypass the guard. Other mixed-case spellings bypass the guard as well but are not stated.
- Router.AdminIndexRedirect: models the empty child path of the '/admin' record for the exact path '/admin'. The trailing-slash form and the router's own matching are not modelled.

## Findings

| source | as written | input that shows it | evidently intended | confidence | as-written member | corrected member |
|---|---|---|---|---|---|---|
| src/composables/useCatalogo.js:38 | 'Todos' is put next to the `Set` of categories, not into it, and then the whole array is sorted. | A product whose `categoria` is 'Todos' makes the menu list 'Todos' twice. | Each menu entry appears once. | medium, not executed | Catalogo.TodosListedTwice | Catalogo.UniqueCategoriesDistinct |
| src/router/index.js:109 | The session guard compares `to.path` case-sensitively with '/admin'. The admin route record, under the router's default case-insensitive matching, also matches upper-case spellings. | '/ADMIN/productos' without a session renders the admin products page. | Every path that reaches the admin layout needs a session. | medium, not executed | Router.MixedCaseAdminPathBypassesGuard | Router.CaseInsensitiveGuardCoversAdminRecord |

=== FILE: catalogo.dfy ===
/** The catalogue page: the catalogue record fetched by slug, and the views derived from it and
    from the visitor's search, category and sort choices. Every derived view is a pure function of
    the current state; the clock and the locale-aware name comparison are parameters. */
module Catalogo {
  import opened Wrappers
  import JsString
  import JsArray
  import JsSet
  import StableSort

  /** A product as the store returns it; the image rows travel along and play no part here.
      `codigo` and `categoria` may be null; `precio` is an integer amount (for instance cents). */
  datatype Producto = Producto(
    id: string,
    nombre: string,
    codigo: Option<string>,
    categoria: Option<string>,
    precio: int)

  /** A `catalogo_items` row: its product is null when the link no longer resolves. */
  datatype CatalogoItem = CatalogoItem(productos: Option<Producto>)

  /** A `catalogos` row with its items. `fechaCaducidad` is the expiry instant, already parsed. */
  datatype Catalogo = Catalogo(
    slug: string,
    fechaCaducidad: Option<int>,
    catalogoItems: Option<seq<CatalogoItem>>)

  /** The category sentinel meaning "no category filter". */
  const Todos: string := "Todos"

  /** The visitor's choices, with their initial values in `InitialCriterios`. */
  datatype Criterios = Criterios(searchTerm: string, sortOrder: string, activeCategory: string)

  const InitialCriterios := Criterios("", "nombre-asc", Todos)

  // ---------------------------------------------------------------------------------------------
  // isExpired

  /** `isExpired`, evaluated at the instant `now`. */
  function IsExpired(catalogo: Option<Catalogo>, now: int): (r: bool)
    ensures catalogo.None? ==> !r
    ensures catalogo.Some? && catalogo.value.fechaCaducidad.None? ==> !r
    ensures catalogo.Some? && catalogo.value.fechaCaducidad.Some? ==>
              (r <==> catalogo.value.fechaCaducidad.value < now)
  {
    match catalogo
    case None => false
    case Some(c) =>
      match c.fechaCaducidad
      case None => false
      case Some(t) => t < now
  }

  /** Once a catalogue has expired it stays expired, and it is not yet expired at its expiry instant. */
  lemma ExpiryIsPermanent(catalogo: Option<Catalogo>, now: int, later: int)
    requires now <= later
    ensures IsExpired(catalogo, now) ==> IsExpired(catalogo, later)
    ensures catalogo.Some? && catalogo.value.fechaCaducidad.Some? ==>
              !IsExpired(catalogo, catalogo.value.fechaCaducidad.value)
  {
  }

  // ---------------------------------------------------------------------------------------------
  // productosBase

  /** The products of the items whose product resolved, in item order. */
  function Resolved(items: seq<CatalogoItem>): (r: seq<Producto>)
    ensures |r| <= |items|
  {
    if |items| == 0 then []
    else if items[0].productos.Some? then [items[0].productos.value] + Resolved(items[1..])
    else Resolved(items[1..])
  }

  /** `productosBase` */
  function ProductosBase(catalogo: Option<Catalogo>): (r: seq<Producto>)
    ensures catalogo.None? ==> r == []
    ensures catalogo.Some? && catalogo.value.catalogoItems.None? ==> r == []
  {
    match catalogo
    case None => []
    case Some(c) =>
      match c.catalogoItems
      case None => []
      case Some(items) => Resolved(items)
  }

  /** Each product occurs in `productosBase` exactly as often as an item carries it; in particular
      the products listed are exactly those of the items whose product resolved. */
  lemma {:induction false} ResolvedCount(items: seq<CatalogoItem>, p: Producto)
    ensures multiset(Resolved(items))[p] == multiset(items)[CatalogoItem(Some(p))]
    ensures p in Resolved(items) <==> CatalogoItem(Some(p)) in items
    decreases |items|
  {
    if |items| > 0 {
      ResolvedCount(items[1..], p);
      var rest := Resolved(items[1..]);
      assert items == [items[0]] + items[1..];
      assert multiset(items)[CatalogoItem(Some(p))]
          == multiset([items[0]])[CatalogoItem(Some(p))] + multiset(items[1..])[CatalogoItem(Some(p))];
      if items[0].productos.Some? {
        assert multiset([items[0].productos.value] + rest)[p]
            == multiset([items[0].productos.value])[p] + multiset(rest)[p];
      }
    }
  }

  /** `productosBase` keeps item order: it works piecewise over the items. */
  lemma {:induction false} ResolvedAppend(a: seq<CatalogoItem>, b: seq<CatalogoItem>)
    ensures Resolved(a + b) == Resolved(a) + Resolved(b)
    decreases |a|
  {
    if |a| == 0 {
      assert a + b == b;
    } else {
      assert (a + b)[0] == a[0];
      assert (a + b)[1..] == a[1..] + b;
      ResolvedAppend(a[1..], b);
    }
  }

  // ---------------------------------------------------------------------------------------------
  // uniqueCategories

  /** `allCategories.filter(Boolean)`: the categories that are neither null nor empty. */
  function NonEmptyCategories(productos: seq<Producto>): (r: seq<string>)
    ensures forall c :: c in r ==> c != ""
  {
    if |productos| == 0 then []
    else
      var rest := NonEmptyCategories(productos[1..]);
      match productos[0].categoria
      case Some(c) => if c != "" then [c] + rest else rest
      case None => rest
  }

  /** The distinct non-empty categories carried by the products. */
  function CategorySet(productos: seq<Producto>): set<string>
  {
    set p | p in productos && p.categoria.Some? && p.categoria.value != "" :: p.categoria.value
  }

  lemma {:induction false} NonEmptyCategoriesElements(productos: seq<Producto>)
    ensures JsSet.Elements(NonEmptyCategories(productos)) == CategorySet(productos)
    decreases |productos|
  {
    if |productos| > 0 {
      NonEmptyCategoriesElements(productos[1..]);
      assert productos == [productos[0]] + productos[1..];
      assert CategorySet(productos) == CategorySet([productos[0]]) + CategorySet(productos[1..]);
    }
  }

  /** The default `sort()` leaves no string after one it is strictly below. */
  lemma SortedByCodePoints(s: seq<string>)
    ensures forall i, j :: 0 <= i < j < |StableSort.Sort(s, JsString.CodePointCompare)| ==>
              !JsString.CodePointLess(StableSort.Sort(s, JsString.CodePointCompare)[j],
                                      StableSort.Sort(s, JsString.CodePointCompare)[i])
  {
    JsString.CodePointCompareConsistent();
    StableSort.SortOrdered(s, JsString.CodePointCompare);
    var r := StableSort.Sort(s, JsString.CodePointCompare);
    forall i, j | 0 <= i < j < |r|
      ensures !JsString.CodePointLess(r[j], r[i])
    {
      assert JsString.CodePointCompare(r[i], r[j]) <= 0;
      JsString.CodePointLessAsymmetric(r[i], r[j]);
    }
  }

  /** `uniqueCategories`: 'Todos' followed by the distinct categories, then the whole array passed
      through the default `sort()`. It is just ['Todos'] for an empty base; otherwise it holds the
      base's distinct non-empty categories plus one 'Todos' (so 'Todos' twice when a product's
      category is itself 'Todos'), and 'Todos' is sorted among the categories rather than pinned
      first. */
  function UniqueCategories(base: seq<Producto>): (r: seq<string>)
    ensures |base| == 0 ==> r == [Todos]
    ensures multiset(r) == multiset{Todos} + multiset(CategorySet(base))
    ensures forall i, j :: 0 <= i < j < |r| ==> !JsString.CodePointLess(r[j], r[i])
  {
    if |base| == 0 then
      assert CategorySet(base) == {};
      [Todos]
    else
      var distinct := JsSet.FromSeq(NonEmptyCategories(base));
      assert multiset([Todos] + distinct) == multiset{Todos} + multiset(CategorySet(base)) by {
        NonEmptyCategoriesElements(base);
        JsSet.DistinctMultiset(distinct);
        assert multiset([Todos] + distinct) == multiset{Todos} + multiset(distinct);
      }
      SortedByCodePoints([Todos] + distinct);
      StableSort.Sort([Todos] + distinct, JsString.CodePointCompare)
  }

  /** 'Todos' takes no fixed place: with a single category 'Bebes' it comes second, since 'B'
      precedes 'T' in code-point order. */
  lemma TodosIsSortedNotPinned()
    ensures UniqueCategories([Producto("p1", "Jarabe", None, Some("Bebes"), 100)]) == ["Bebes", Todos]
  {
    var base := [Producto("p1", "Jarabe", None, Some("Bebes"), 100)];
    assert CategorySet(base) == {"Bebes"};
    assert JsString.CodePointLess("Bebes", Todos);
    SingleCategory(base, "Bebes");
  }

  lemma SingleCategory(base: seq<Producto>, c: string)
    requires CategorySet(base) == {c} && JsString.CodePointLess(c, Todos)
    ensures UniqueCategories(base) == [c, Todos]
  {
    var r := UniqueCategories(base);
    assert multiset(CategorySet(base)) == multiset{c};
    OrderedPair(r, c, Todos);
  }

  /** The only code-point ordered arrangement of two strings `a < b` is `[a, b]`. */
  lemma OrderedPair(r: seq<string>, a: string, b: string)
    requires JsString.CodePointLess(a, b)
    requires multiset(r) == multiset{b} + multiset{a}
    requires forall i, j :: 0 <= i < j < |r| ==> !JsString.CodePointLess(r[j], r[i])
    ensures r == [a, b]
  {
    assert |r| == 2 by {
      assert |multiset(r)| == 2;
    }
    assert r == [r[0], r[1]];
    assert multiset(r) == multiset{r[0], r[1]};
    JsString.CodePointLessIrreflexive(a);
  }

  /** As written, a product whose category is itself 'Todos' makes 'Todos' appear twice, because
      the sentinel is put next to the `Set` rather than into it. */
  lemma TodosListedTwice(base: seq<Producto>)
    requires Todos in CategorySet(base)
    ensures multiset(UniqueCategories(base))[Todos] == 2
  {
  }

  /** `uniqueCategories` with the sentinel put into the `Set` together with the categories: every
      category, 'Todos' included, is listed exactly once, in code-point order. */
  function UniqueCategoriesDistinct(base: seq<Producto>): (r: seq<string>)
    ensures multiset(r) == multiset({Todos} + CategorySet(base))
    ensures forall i, j :: 0 <= i < j < |r| ==> !JsString.CodePointLess(r[j], r[i])
  {
    var all := [Todos] + NonEmptyCategories(base);
    var distinct := JsSet.FromSeq(all);
    assert multiset(distinct) == multiset({Todos} + CategorySet(base)) by {
      NonEmptyCategoriesElements(base);
      assert JsSet.Elements(all) == {Todos} + JsSet.Elements(NonEmptyCategories(base));
      JsSet.DistinctMultiset(distinct);
    }
    SortedByCodePoints(distinct);
    StableSort.Sort(distinct, JsString.CodePointCompare)
  }

  // ---------------------------------------------------------------------------------------------
  // filteredAndSortedProductos

  /** The category criterion: 'Todos' accepts every product, any other value only an exact match. */
  predicate CategoryMatches(p: Producto, activeCategory: string)
  {
    activeCategory == Todos || p.categoria == Some(activeCategory)
  }

  /** The search criterion: an empty term accepts every product; otherwise the lowered term must
      occur in the lowered name or in the lowered, non-empty code. */
  ghost predicate SearchMatches(p: Producto, searchTerm: string)
  {
    || searchTerm == ""
    || (exists i :: JsString.OccursAt(JsString.ToLower(p.nombre), JsString.ToLower(searchTerm), i))
    || (&& p.codigo.Some? && p.codigo.value != ""
        && exists i :: JsString.OccursAt(JsString.ToLower(p.codigo.value), JsString.ToLower(searchTerm), i))
  }

  /** The products passing both criteria, in base order: what the view is expected to show. */
  ghost function Selected(base: seq<Producto>, activeCategory: string, searchTerm: string): seq<Producto>
  {
    if |base| == 0 then []
    else
      (if CategoryMatches(base[0], activeCategory) && SearchMatches(base[0], searchTerm) then [base[0]] else [])
      + Selected(base[1..], activeCategory, searchTerm)
  }

  /** The category filter's callback. */
  function InCategory(activeCategory: string): Producto -> bool
  {
    (p: Producto) => p.categoria == Some(activeCategory)
  }

  /** The search filter's callback, given the lowered term. */
  function MatchesLowered(lowerCaseSearch: string): Producto -> bool
  {
    (p: Producto) =>
      || JsString.Includes(JsString.ToLower(p.nombre), lowerCaseSearch)
      || (p.codigo.Some? && p.codigo.value != "" && JsString.Includes(JsString.ToLower(p.codigo.value), lowerCaseSearch))
  }

  /** The category filter: keeps each product meeting the category criterion, as often as it occurs,
      and drops every other. */
  function FilterByCategory(productos: seq<Producto>, activeCategory: string): (r: seq<Producto>)
    ensures forall p :: multiset(r)[p] == if CategoryMatches(p, activeCategory) then multiset(productos)[p] else 0
  {
    assert forall p :: (multiset(JsArray.Filter(productos, InCategory(activeCategory)))[p]
        == if InCategory(activeCategory)(p) then multiset(productos)[p] else 0) by {
      forall p
        ensures multiset(JsArray.Filter(productos, InCategory(activeCategory)))[p]
             == if InCategory(activeCategory)(p) then multiset(productos)[p] else 0
      {
        JsArray.FilterCount(productos, InCategory(activeCategory), p);
      }
    }
    if activeCategory != Todos then JsArray.Filter(productos, InCategory(activeCategory)) else productos
  }

  /** The search filter: keeps each product meeting the search criterion, as often as it occurs,
      and drops every other. */
  function FilterBySearch(productos: seq<Producto>, searchTerm: string): (r: seq<Producto>)
    ensures forall p :: multiset(r)[p] == if SearchMatches(p, searchTerm) then multiset(productos)[p] else 0
  {
    assert searchTerm != "" ==> forall p :: (multiset(JsArray.Filter(productos, MatchesLowered(JsString.ToLower(searchTerm))))[p]
        == if SearchMatches(p, searchTerm) then multiset(productos)[p] else 0) by {
      if searchTerm != "" {
        var keep := MatchesLowered(JsString.ToLower(searchTerm));
        forall p
          ensures multiset(JsArray.Filter(productos, keep))[p]
               == if SearchMatches(p, searchTerm) then multiset(productos)[p] else 0
        {
          JsArray.FilterCount(productos, keep, p);
          SearchCallback(p, searchTerm);
        }
      }
    }
    if searchTerm != "" then JsArray.Filter(productos, MatchesLowered(JsString.ToLower(searchTerm)))
    else productos
  }

  /** The comparator of 'nombre-asc', over an abstract `localeCompare`. */
  function ByNombre(localeCompare: (string, string) -> int): (r: (Producto, Producto) -> int)
    ensures forall a: Producto, b: Producto, a': Producto, b': Producto ::
              a.nombre == a'.nombre && b.nombre == b'.nombre ==> r(a, b) == r(a', b')
  {
    (a: Producto, b: Producto) => localeCompare(a.nombre, b.nombre)
  }

  /** The comparator of 'precio-asc'. */
  function PrecioAsc(a: Producto, b: Producto): (r: int)
    ensures r <= 0 <==> a.precio <= b.precio
    ensures r == 0 <==> a.precio == b.precio
  {
    a.precio - b.precio
  }

  /** The comparator of 'precio-desc'. */
  function PrecioDesc(a: Producto, b: Producto): (r: int)
    ensures r <= 0 <==> b.precio <= a.precio
    ensures r == 0 <==> a.precio == b.precio
  {
    b.precio - a.precio
  }

  /** The `switch` on the sort order; an unknown order leaves the array as it is. */
  function SortProductos(productos: seq<Producto>, sortOrder: string,
                         localeCompare: (string, string) -> int): (r: seq<Producto>)
    ensures multiset(r) == multiset(productos)
  {
    if sortOrder == "nombre-asc" then StableSort.Sort(productos, ByNombre(localeCompare))
    else if sortOrder == "precio-asc" then StableSort.Sort(productos, PrecioAsc)
    else if sortOrder == "precio-desc" then StableSort.Sort(productos, PrecioDesc)
    else productos
  }

  /** `filteredAndSortedProductos`. The base is a value, so it is never reordered. */
  function FilteredAndSorted(base: seq<Producto>, criterios: Criterios,
                             localeCompare: (string, string) -> int): (r: seq<Producto>)
    ensures multiset(r) == multiset(Selected(base, criterios.activeCategory, criterios.searchTerm))
  {
    FiltersSelect(base, criterios.activeCategory, criterios.searchTerm);
    var byCategory := FilterByCategory(base, criterios.activeCategory);
    var bySearch := FilterBySearch(byCategory, criterios.searchTerm);
    SortProductos(bySearch, criterios.sortOrder, localeCompare)
  }

  lemma SearchCallback(p: Producto, searchTerm: string)
    requires searchTerm != ""
    ensures MatchesLowered(JsString.ToLower(searchTerm))(p) <==> SearchMatches(p, searchTerm)
  {
  }

  /** The two filters together keep exactly the products meeting both criteria, in base order. */
  lemma {:induction false} FiltersSelect(base: seq<Producto>, activeCategory: string, searchTerm: string)
    ensures FilterBySearch(FilterByCategory(base, activeCategory), searchTerm)
         == Selected(base, activeCategory, searchTerm)
    decreases |base|
  {
    if |base| > 0 {
      var p, rest := base[0], base[1..];
      var head := if CategoryMatches(p, activeCategory) then [p] else [];
      FiltersSelect(rest, activeCategory, searchTerm);
      CategoryFilterUnfolds(base, activeCategory);
      SearchFilterSplits(head, FilterByCategory(rest, activeCategory), searchTerm);
      assert FilterBySearch(head, searchTerm)
          == if CategoryMatches(p, activeCategory) && SearchMatches(p, searchTerm) then [p] else [] by {
        if searchTerm != "" {
          SearchCallback(p, searchTerm);
        }
      }
    }
  }

  lemma CategoryFilterUnfolds(base: seq<Producto>, activeCategory: string)
    requires |base| > 0
    ensures FilterByCategory(base, activeCategory)
         == (if CategoryMatches(base[0], activeCategory) then [base[0]] else [])
            + FilterByCategory(base[1..], activeCategory)
  {
    if activeCategory == Todos {
      assert base == [base[0]] + base[1..];
    }
  }

  lemma SearchFilterSplits(a: seq<Producto>, b: seq<Producto>, searchTerm: string)
    ensures FilterBySearch(a + b, searchTerm) == FilterBySearch(a, searchTerm) + FilterBySearch(b, searchTerm)
  {
    if searchTerm != "" {
      JsArray.FilterAppend(a, b, MatchesLowered(JsString.ToLower(searchTerm)));
    }
  }

  /** Each product occurs in `Selected` as often as in the base when it meets both criteria. */
  lemma {:induction false} SelectedCount(base: seq<Producto>, activeCategory: string, searchTerm: string, p: Producto)
    ensures multiset(Selected(base, activeCategory, searchTerm))[p]
         == if CategoryMatches(p, activeCategory) && SearchMatches(p, searchTerm) then multiset(base)[p] else 0
    decreases |base|
  {
    if |base| > 0 {
      SelectedCount(base[1..], activeCategory, searchTerm, p);
      assert base == [base[0]] + base[1..];
    }
  }

  /** The view holds exactly the base products meeting both criteria, each as often as in the
      base: nothing is lost, added or duplicated. */
  lemma FilteredAndSortedContents(base: seq<Producto>, criterios: Criterios,
                                  localeCompare: (string, string) -> int, p: Producto)
    ensures multiset(FilteredAndSorted(base, criterios, localeCompare))[p]
         == if CategoryMatches(p, criterios.activeCategory) && SearchMatches(p, criterios.searchTerm)
            then multiset(base)[p] else 0
    ensures p in FilteredAndSorted(base, criterios, localeCompare) <==>
              p in base && CategoryMatches(p, criterios.activeCategory) && SearchMatches(p, criterios.searchTerm)
  {
    FiltersSelect(base, criterios.activeCategory, criterios.searchTerm);
    SelectedCount(base, criterios.activeCategory, criterios.searchTerm, p);
  }

  /** With a category other than 'Todos' every shown product has exactly that category, and with a
      non-empty term every shown product's lowered name or non-empty code contains the lowered term. */
  lemma FilteredAndSortedSound(base: seq<Producto>, criterios: Criterios,
                               localeCompare: (string, string) -> int)
    ensures forall p :: (p in FilteredAndSorted(base, criterios, localeCompare) &&
              criterios.activeCategory != Todos) ==> p.categoria == Some(criterios.activeCategory)
    ensures forall p :: (p in FilteredAndSorted(base, criterios, localeCompare) &&
              criterios.searchTerm != "") ==>
                (|| JsString.Includes(JsString.ToLower(p.nombre), JsString.ToLower(criterios.searchTerm))
                 || (p.codigo.Some? && p.codigo.value != "" &&
                     JsString.Includes(JsString.ToLower(p.codigo.value), JsString.ToLower(criterios.searchTerm))))
  {
    forall p | p in FilteredAndSorted(base, criterios, localeCompare)
      ensures CategoryMatches(p, criterios.activeCategory) && SearchMatches(p, criterios.searchTerm)
    {
      FilteredAndSortedContents(base, criterios, localeCompare, p);
    }
  }

  /** 'Todos' and the empty term filter nothing: the view is then a reordering of the whole base. */
  lemma NoCriteriaKeepsAll(base: seq<Producto>, sortOrder: string, localeCompare: (string, string) -> int)
    ensures multiset(FilteredAndSorted(base, Criterios("", sortOrder, Todos), localeCompare)) == multiset(base)
  {
    var criterios := Criterios("", sortOrder, Todos);
    forall p
      ensures multiset(FilteredAndSorted(base, criterios, localeCompare))[p] == multiset(base)[p]
    {
      FilteredAndSortedContents(base, criterios, localeCompare, p);
    }
  }

  lemma PrecioComparatorsConsistent()
    ensures StableSort.Consistent(PrecioAsc)
    ensures StableSort.Consistent(PrecioDesc)
  {
    forall a, b ensures StableSort.Comparable(PrecioAsc, a, b) && StableSort.Comparable(PrecioDesc, a, b) { }
    forall a, b, c ensures StableSort.Chains(PrecioAsc, a, b, c) && StableSort.Chains(PrecioDesc, a, b, c) { }
    forall a, b ensures StableSort.Mirrors(PrecioAsc, a, b) && StableSort.Mirrors(PrecioDesc, a, b) { }
  }

  /** A consistent `localeCompare` gives a consistent name comparator. */
  lemma ByNombreConsistent(localeCompare: (string, string) -> int)
    requires StableSort.Consistent(localeCompare)
    ensures StableSort.Consistent(ByNombre(localeCompare))
  {
    var cmp := ByNombre(localeCompare);
    forall a, b ensures StableSort.Comparable(cmp, a, b)
    {
      assert StableSort.Comparable(localeCompare, a.nombre, b.nombre);
    }
    forall a, b, c ensures StableSort.Chains(cmp, a, b, c)
    {
      assert StableSort.Chains(localeCompare, a.nombre, b.nombre, c.nombre);
    }
    forall a, b ensures StableSort.Mirrors(cmp, a, b)
    {
      assert StableSort.Mirrors(localeCompare, a.nombre, b.nombre);
    }
  }

  /** 'precio-asc' yields non-decreasing prices, 'precio-desc' non-increasing ones, 'nombre-asc'
      names in `localeCompare` order, and any other order leaves the filtered products in base order. */
  lemma FilteredAndSortedOrder(base: seq<Producto>, criterios: Criterios,
                               localeCompare: (string, string) -> int)
    ensures var r := FilteredAndSorted(base, criterios, localeCompare);
      && (criterios.sortOrder == "precio-asc" ==>
            forall i, j :: 0 <= i < j < |r| ==> r[i].precio <= r[j].precio)
      && (criterios.sortOrder == "precio-desc" ==>
            forall i, j :: 0 <= i < j < |r| ==> r[i].precio >= r[j].precio)
      && (criterios.sortOrder == "nombre-asc" && StableSort.Consistent(localeCompare) ==>
            forall i, j :: 0 <= i < j < |r| ==> localeCompare(r[i].nombre, r[j].nombre) <= 0)
      && (criterios.sortOrder !in {"nombre-asc", "precio-asc", "precio-desc"} ==>
            r == Selected(base, criterios.activeCategory, criterios.searchTerm))
  {
    var selected := FilterBySearch(FilterByCategory(base, criterios.activeCategory), criterios.searchTerm);
    FiltersSelect(base, criterios.activeCategory, criterios.searchTerm);
    if criterios.sortOrder == "precio-asc" {
      PrecioComparatorsConsistent();
      StableSort.SortOrdered(selected, PrecioAsc);
    } else if criterios.sortOrder == "precio-desc" {
      PrecioComparatorsConsistent();
      StableSort.SortOrdered(selected, PrecioDesc);
    } else if criterios.sortOrder == "nombre-asc" && StableSort.Consistent(localeCompare) {
      ByNombreConsistent(localeCompare);
      StableSort.SortOrdered(selected, ByNombre(localeCompare));
    }
  }

  /** On page load the view shows every product of the base, sorted by name whenever
      `localeCompare` is consistent. */
  lemma InitialViewShowsAll(base: seq<Producto>, localeCompare: (string, string) -> int)
    ensures multiset(FilteredAndSorted(base, InitialCriterios, localeCompare)) == multiset(base)
    ensures StableSort.Consistent(localeCompare) ==>
              var r := FilteredAndSorted(base, InitialCriterios, localeCompare);
              forall i, j :: 0 <= i < j < |r| ==> localeCompare(r[i].nombre, r[j].nombre) <= 0
  {
    NoCriteriaKeepsAll(base, InitialCriterios.sortOrder, localeCompare);
    FilteredAndSortedOrder(base, InitialCriterios, localeCompare);
  }

  /** The sort is stable: products that compare as equal (same price, or names `localeCompare`
      finds equal) keep their relative base order. */
  lemma FilteredAndSortedStable(base: seq<Producto>, criterios: Criterios,
                                localeCompare: (string, string) -> int, x: Producto)
    ensures var r := FilteredAndSorted(base, criterios, localeCompare);
      var selected := Selected(base, criterios.activeCategory, criterios.searchTerm);
      && (criterios.sortOrder == "precio-asc" ==>
            StableSort.Ties(r, PrecioAsc, x) == StableSort.Ties(selected, PrecioAsc, x))
      && (criterios.sortOrder == "precio-desc" ==>
            StableSort.Ties(r, PrecioDesc, x) == StableSort.Ties(selected, PrecioDesc, x))
      && (criterios.sortOrder == "nombre-asc" && StableSort.Consistent(localeCompare) ==>
            StableSort.Ties(r, ByNombre(localeCompare), x) == StableSort.Ties(selected, ByNombre(localeCompare), x))
  {
    var selected := Selected(base, criterios.activeCategory, criterios.searchTerm);
    FiltersSelect(base, criterios.activeCategory, criterios.searchTerm);
    if criterios.sortOrder == "precio-asc" {
      PrecioComparatorsConsistent();
      StableSort.SortStable(selected, PrecioAsc, x);
    } else if criterios.sortOrder == "precio-desc" {
      PrecioComparatorsConsistent();
      StableSort.SortStable(selected, PrecioDesc, x);
    } else if criterios.sortOrder == "nombre-asc" && StableSort.Consistent(localeCompare) {
      ByNombreConsistent(localeCompare);
      StableSort.SortStable(selected, ByNombre(localeCompare), x);
    }
  }

  /** Two products tie under either price comparator exactly when their prices are equal. */
  lemma PrecioTies(a: Producto, x: Producto)
    ensures StableSort.Tied(PrecioAsc, a, x) <==> a.precio == x.precio
    ensures StableSort.Tied(PrecioDesc, a, x) <==> a.precio == x.precio
  {
  }

  // ---------------------------------------------------------------------------------------------
  // fetchCatalogo

  /** The page's state: `catalogo`, `loading` (initially true) and `error`. */
  datatype CatalogoState = CatalogoState(catalogo: Option<Catalogo>, loading: bool, error: Option<string>)

  const InitialCatalogoState := CatalogoState(None, true, None)

  /** What the single-row query by slug hands back: a row, neither a row nor an error, or an error.
      The query reports an unknown slug as an error, so `NoData` is the reply that carries nothing. */
  datatype CatalogoReply =
    | Found(data: Catalogo)
    | NoData
    | StoreError(message: string)

  const NotFoundMessage: string := "No se encontró el catálogo solicitado."

  /** The start of `fetchCatalogo`: the busy flag goes up. */
  function StartFetchCatalogo(s: CatalogoState): (r: CatalogoState)
    ensures r.loading
    ensures r.catalogo == s.catalogo && r.error == s.error
  {
    s.(loading := true)
  }

  /** The end of `fetchCatalogo`, once the reply is in. */
  function CompleteFetchCatalogo(s: CatalogoState, reply: CatalogoReply): (r: CatalogoState)
    ensures !r.loading
  {
    match reply
    case StoreError(message) => s.(error := Some(message), loading := false)
    case NoData => s.(error := Some(NotFoundMessage), loading := false)
    case Found(data) => s.(catalogo := Some(data), loading := false)
  }

  /** `fetchCatalogo` from start to finish. The busy flag is down afterwards whatever the reply;
      a failure records its message and keeps the catalogue; a success stores the data and leaves
      any earlier error in place. */
  function FetchCatalogo(s: CatalogoState, reply: CatalogoReply): (r: CatalogoState)
    ensures !r.loading
    ensures reply.Found? ==> r.catalogo == Some(reply.data) && r.error == s.error
    ensures reply.NoData? ==> r.catalogo == s.catalogo && r.error == Some(NotFoundMessage)
    ensures reply.StoreError? ==> r.catalogo == s.catalogo && r.error == Some(reply.message)
  {
    CompleteFetchCatalogo(StartFetchCatalogo(s), reply)
  }

  /** A failed fetch changes none of the derived views. */
  lemma FailedFetchKeepsViews(s: CatalogoState, reply: CatalogoReply, now: int)
    requires !reply.Found?
    ensures ProductosBase(FetchCatalogo(s, reply).catalogo) == ProductosBase(s.catalogo)
    ensures IsExpired(FetchCatalogo(s, reply).catalogo, now) == IsExpired(s.catalogo, now)
  {
  }

  /** On first load, a reply with neither data nor error ends with the not-found message and no
      busy flag. */
  lemma EmptyReplyOnFirstLoad()
    ensures FetchCatalogo(InitialCatalogoState, NoData) == CatalogoState(None, false, Some(NotFoundMessage))
  {
  }

  /** On first load, an unknown slug (which the single-row query reports as an error) ends with no
      catalogue, no busy flag, and the store's own message. */
  lemma MissingSlugOnFirstLoad(message: string)
    ensures FetchCatalogo(InitialCatalogoState, StoreError(message)) == CatalogoState(None, false, Some(message))
  {
  }
}

=== FILE: js_array.dfy ===
/** `Array.prototype.filter`: keeps, in order, the elements the callback accepts. */
module JsArray {

  function Filter<T>(s: seq<T>, keep: T -> bool): (r: seq<T>)
    ensures |r| <= |s|
    ensures forall x :: x in r ==> keep(x)
  {
    if |s| == 0 then [] else (if keep(s[0]) then [s[0]] else []) + Filter(s[1..], keep)
  }

  /** Each element occurs in the result as often as in the input when accepted, and never otherwise. */
  lemma {:induction false} FilterCount<T>(s: seq<T>, keep: T -> bool, x: T)
    ensures multiset(Filter(s, keep))[x] == if keep(x) then multiset(s)[x] else 0
    decreases |s|
  {
    if |s| > 0 {
      FilterCount(s[1..], keep, x);
      assert s == [s[0]] + s[1..];
    }
  }

  /** Filtering works piecewise, so it keeps the relative order of what it keeps. */
  lemma {:induction false} FilterAppend<T>(a: seq<T>, b: seq<T>, keep: T -> bool)
    ensures Filter(a + b, keep) == Filter(a, keep) + Filter(b, keep)
    decreases |a|
  {
    if |a| == 0 {
      assert a + b == b;
    } else {
      assert (a + b)[0] == a[0];
      assert (a + b)[1..] == a[1..] + b;
      FilterAppend(a[1..], b, keep);
    }
  }
}

=== FILE: js_set.dfy ===
/** An ECMAScript `Set` of primitive values: duplicate-free and, as section 24.2 of ECMA-262
    requires, iterated in insertion order. It is kept as the sequence of its entries in that order. */
module JsSet {

  predicate NoDuplicates<T(==)>(s: seq<T>)
  {
    forall i, j :: 0 <= i < j < |s| ==> s[i] != s[j]
  }

  type OrderedSet<T(==)> = s: seq<T> | NoDuplicates(s) witness []

  function Elements<T>(s: seq<T>): set<T>
  {
    set x | x in s
  }

  function IndexOf<T(==)>(s: seq<T>, x: T): (i: nat)
    requires x in s
    ensures i < |s| && s[i] == x
    ensures forall j :: 0 <= j < i ==> s[j] != x
  {
    if s[0] == x then 0 else 1 + IndexOf(s[1..], x)
  }

  /** `set.has(x)` */
  predicate Has<T(==)>(s: OrderedSet<T>, x: T)
  {
    x in s
  }

  /** `set.add(x)`: a new value goes last; a value already present keeps its place. */
  function Add<T(==)>(s: OrderedSet<T>, x: T): (r: OrderedSet<T>)
    ensures Elements(r) == Elements(s) + {x}
    ensures |r| == if x in s then |s| else |s| + 1
    ensures r[..|s|] == s
  {
    if x in s then s else s + [x]
  }

  /** `set.delete(x)`: removes the entry for `x`, if any. */
  function Delete<T(==)>(s: OrderedSet<T>, x: T): (r: OrderedSet<T>)
    ensures Elements(r) == Elements(s) - {x}
    ensures |r| == if x in s then |s| - 1 else |s|
  {
    if |s| == 0 then s
    else if s[0] == x then
      assert s[0] !in Elements(s[1..]);
      s[1..]
    else
      var rest := Delete(s[1..], x);
      assert s[0] !in Elements(s[1..]);
      assert s[0] !in Elements(rest);
      assert s[0] !in rest;
      assert s == [s[0]] + s[1..];
      assert Elements(s) == {s[0]} + Elements(s[1..]);
      assert Elements([s[0]] + rest) == {s[0]} + Elements(rest);
      [s[0]] + rest
  }

  /** Deleting an absent value changes nothing; deleting a present one takes out exactly its
      entry, and every other entry keeps its relative order. */
  lemma {:induction false} DeleteKeepsOrder<T>(s: OrderedSet<T>, x: T)
    ensures x !in s ==> Delete(s, x) == s
    ensures x in s ==> Delete(s, x) == s[..IndexOf(s, x)] + s[IndexOf(s, x) + 1..]
    decreases |s|
  {
    if |s| > 0 && s[0] != x {
      var t: OrderedSet<T> := s[1..];
      DeleteKeepsOrder(t, x);
      assert Delete(s, x) == [s[0]] + Delete(t, x);
      if x in s {
        var k := IndexOf(t, x);
        assert IndexOf(s, x) == 1 + k;
        assert s[..1 + k] == [s[0]] + t[..k];
        assert s[1 + k + 1..] == t[k + 1..];
      } else {
        assert s == [s[0]] + t;
      }
    }
  }

  /** `set.size` is the number of distinct values held. */
  function Size<T(==)>(s: OrderedSet<T>): (n: nat)
    ensures n == |Elements(s)|
  {
    DistinctCardinality(s);
    |s|
  }

  lemma {:induction false} DistinctCardinality<T>(s: seq<T>)
    requires NoDuplicates(s)
    ensures |Elements(s)| == |s|
    decreases |s|
  {
    if |s| > 0 {
      DistinctCardinality(s[1..]);
      assert Elements(s) == {s[0]} + Elements(s[1..]);
      assert s[0] !in Elements(s[1..]);
    }
  }

  /** A duplicate-free sequence holds each of its elements once. */
  lemma {:induction false} DistinctMultiset<T>(s: seq<T>)
    requires NoDuplicates(s)
    ensures multiset(s) == multiset(Elements(s))
    decreases |s|
  {
    if |s| > 0 {
      DistinctMultiset(s[1..]);
      assert s == [s[0]] + s[1..];
      assert Elements(s) == {s[0]} + Elements(s[1..]);
      assert s[0] !in Elements(s[1..]);
    }
  }

  /** `new Set(xs)`: adds the values of `xs` one by one, so each keeps the place of its first
      occurrence. */
  function FromSeq<T(==)>(xs: seq<T>): (r: OrderedSet<T>)
    ensures Elements(r) == Elements(xs)
    ensures |r| <= |xs|
  {
    if |xs| == 0 then []
    else
      var init := xs[..|xs| - 1];
      assert Elements(xs) == Elements(init) + {xs[|xs| - 1]} by {
        assert xs == init + [xs[|xs| - 1]];
      }
      Add(FromSeq(init), xs[|xs| - 1])
  }
}

=== FILE: js_string.dfy ===
/** The string operations the storefront relies on: `toLowerCase` (ASCII letters only), `includes`,
    `startsWith`, and the order `Array.prototype.sort` uses when no comparator is given. A `char`
    is a Unicode scalar value, so a character outside the Basic Multilingual Plane is one `char`
    here but two UTF-16 code units in the language; the order below is code-point order, which
    agrees with the language's code-unit order except when such a character meets one in
    U+E000..U+FFFF. */
module JsString {
  import StableSort

  /** `toLowerCase` on one character, restricted to the ASCII letters. */
  function LowerChar(c: char): char
  {
    if 'A' <= c <= 'Z' then (c as int + 32) as char else c
  }

  /** `toLowerCase`: each character lowered in place. */
  function ToLower(s: string): (r: string)
    ensures |r| == |s|
    ensures forall i :: 0 <= i < |s| ==> r[i] == LowerChar(s[i])
  {
    if |s| == 0 then "" else [LowerChar(s[0])] + ToLower(s[1..])
  }

  /** Lowering works character by character, so it distributes over concatenation. */
  lemma ToLowerAppend(a: string, b: string)
    ensures ToLower(a + b) == ToLower(a) + ToLower(b)
  {
    var r := ToLower(a + b);
    forall i | 0 <= i < |r|
      ensures r[i] == (ToLower(a) + ToLower(b))[i]
    {
      if i >= |a| {
        assert (a + b)[i] == b[i - |a|];
      }
    }
  }

  /** `s.startsWith(prefix)`: `prefix` is no longer than `s` and agrees with it position by position. */
  predicate StartsWith(s: string, prefix: string): (b: bool)
    ensures b <==> |prefix| <= |s| && forall i :: 0 <= i < |prefix| ==> s[i] == prefix[i]
  {
    |prefix| <= |s| && s[..|prefix|] == prefix
  }

  /** `sub` occurs in `s` starting at index `i`. */
  predicate OccursAt(s: string, sub: string, i: int)
  {
    0 <= i && i + |sub| <= |s| && s[i..i + |sub|] == sub
  }

  /** `s.includes(sub)`, scanning the start positions from the left. */
  function Includes(s: string, sub: string): (r: bool)
    ensures r <==> exists i :: OccursAt(s, sub, i)
    decreases |s|
  {
    if StartsWith(s, sub) then
      assert OccursAt(s, sub, 0);
      true
    else if |s| == 0 then
      assert forall i :: !OccursAt(s, sub, i);
      false
    else
      var rest := Includes(s[1..], sub);
      assert forall i :: OccursAt(s[1..], sub, i) <==> OccursAt(s, sub, i + 1);
      assert forall i :: OccursAt(s, sub, i) ==> i == 0 || OccursAt(s[1..], sub, i - 1);
      rest
  }

  /** The empty string occurs everywhere, and nothing longer than `s` occurs in it. */
  lemma IncludesBounds(s: string, sub: string)
    ensures Includes(s, "")
    ensures |sub| > |s| ==> !Includes(s, sub)
  {
    assert OccursAt(s, "", 0);
  }

  /** Strict lexicographic order on `char` values: the order of the default `sort()`, up to the
      difference between code points and UTF-16 code units described above. */
  predicate CodePointLess(a: string, b: string)
    decreases |a|
  {
    if |a| == 0 then |b| > 0
    else if |b| == 0 then false
    else if a[0] != b[0] then a[0] < b[0]
    else CodePointLess(a[1..], b[1..])
  }

  lemma {:induction false} CodePointLessIrreflexive(a: string)
    ensures !CodePointLess(a, a)
    decreases |a|
  {
    if |a| > 0 {
      CodePointLessIrreflexive(a[1..]);
    }
  }

  lemma {:induction false} CodePointLessTrichotomous(a: string, b: string)
    ensures a == b || CodePointLess(a, b) || CodePointLess(b, a)
    decreases |a|
  {
    if |a| > 0 && |b| > 0 && a[0] == b[0] {
      CodePointLessTrichotomous(a[1..], b[1..]);
      if a[1..] == b[1..] {
        assert a == [a[0]] + a[1..] && b == [b[0]] + b[1..];
      }
    }
  }

  lemma {:induction false} CodePointLessAsymmetric(a: string, b: string)
    ensures !(CodePointLess(a, b) && CodePointLess(b, a))
    decreases |a|
  {
    if |a| > 0 && |b| > 0 && a[0] == b[0] {
      CodePointLessAsymmetric(a[1..], b[1..]);
    }
  }

  lemma {:induction false} CodePointLessTransitive(a: string, b: string, c: string)
    requires CodePointLess(a, b) && CodePointLess(b, c)
    ensures CodePointLess(a, c)
    decreases |a|
  {
    if |a| > 0 && a[0] == b[0] && b[0] == c[0] {
      CodePointLessTransitive(a[1..], b[1..], c[1..]);
    }
  }

  /** The comparison the default `Array.prototype.sort` applies to two strings. */
  function CodePointCompare(a: string, b: string): int
  {
    if CodePointLess(a, b) then -1 else if CodePointLess(b, a) then 1 else 0
  }

  /** The default sort's comparison is a consistent comparator, so sorting by it is well defined. */
  lemma CodePointCompareConsistent()
    ensures StableSort.Consistent(CodePointCompare)
  {
    forall a, b
      ensures StableSort.Comparable(CodePointCompare, a, b)
    {
      CodePointLessAsymmetric(a, b);
    }
    forall a, b, c
      ensures StableSort.Chains(CodePointCompare, a, b, c)
    {
      if CodePointCompare(a, b) <= 0 && CodePointCompare(b, c) <= 0 && CodePointLess(c, a) {
        CodePointLessTrichotomous(a, b);
        CodePointLessTrichotomous(b, c);
        if CodePointLess(a, b) && CodePointLess(b, c) {
          CodePointLessTransitive(a, b, c);
          CodePointLessAsymmetric(a, c);
        } else if CodePointLess(a, b) {
          CodePointLessTransitive(c, a, b);
        } else if CodePointLess(b, c) {
          CodePointLessTransitive(b, c, a);
        } else {
          CodePointLessIrreflexive(a);
        }
      }
    }
    forall a, b
      ensures StableSort.Mirrors(CodePointCompare, a, b)
    {
      CodePointLessAsymmetric(a, b);
    }
  }
}

=== FILE: lista_cotizacion.dfy ===
/** The quote shortlist: one process-wide `Set` of product ids, changed only through the
    operations below. Each operation takes the current list and returns the next one. */
module ListaCotizacion {
  import JsSet

  type ProductoId = string

  type Lista = JsSet.OrderedSet<ProductoId>

  /** The list at start-up: `new Set()`. */
  const Vacia: Lista := []

  /** `estaEnLista(productoId)`: whether the id is one of the list's elements. */
  predicate EstaEnLista(l: Lista, id: ProductoId): (b: bool)
    ensures b <==> id in JsSet.Elements(l)
  {
    JsSet.Has(l, id)
  }

  /** `listaComoArray`: the ids in the order they were first added, each once. */
  function ListaComoArray(l: Lista): (a: seq<ProductoId>)
    ensures JsSet.NoDuplicates(a)
    ensures forall id :: id in a <==> EstaEnLista(l, id)
  {
    l
  }

  /** `totalProductos`: the number of distinct ids in the list. */
  function TotalProductos(l: Lista): (n: nat)
    ensures n == |JsSet.Elements(l)|
    ensures n == |ListaComoArray(l)|
  {
    JsSet.Size(l)
  }

  /** `anadirProducto(productoId)` */
  function AnadirProducto(l: Lista, id: ProductoId): (r: Lista)
    ensures EstaEnLista(r, id)
    ensures forall other :: other != id ==> (EstaEnLista(r, other) <==> EstaEnLista(l, other))
    ensures EstaEnLista(l, id) ==> r == l
    ensures |l| <= |r| && ListaComoArray(r)[..|l|] == ListaComoArray(l)
  {
    var r := JsSet.Add(l, id);
    assert forall other :: other in r <==> other in JsSet.Elements(r);
    r
  }

  /** `quitarProducto(productoId)` */
  function QuitarProducto(l: Lista, id: ProductoId): (r: Lista)
    ensures !EstaEnLista(r, id)
    ensures forall other :: other != id ==> (EstaEnLista(r, other) <==> EstaEnLista(l, other))
    ensures !EstaEnLista(l, id) ==> r == l
    ensures TotalProductos(r) == if EstaEnLista(l, id) then TotalProductos(l) - 1 else TotalProductos(l)
  {
    var r := JsSet.Delete(l, id);
    JsSet.DeleteKeepsOrder(l, id);
    assert forall other :: other in r <==> other in JsSet.Elements(r);
    r
  }

  /** `alternarProducto(productoId)`: removes the id when present, adds it otherwise. */
  function AlternarProducto(l: Lista, id: ProductoId): (r: Lista)
    ensures EstaEnLista(r, id) <==> !EstaEnLista(l, id)
    ensures forall other :: other != id ==> (EstaEnLista(r, other) <==> EstaEnLista(l, other))
  {
    if EstaEnLista(l, id) then QuitarProducto(l, id) else AnadirProducto(l, id)
  }

  /** `limpiarLista()` */
  function LimpiarLista(l: Lista): (r: Lista)
    ensures forall id :: !EstaEnLista(r, id)
    ensures TotalProductos(r) == 0
  {
    Vacia
  }

  /** Adding is idempotent. */
  lemma AnadirIdempotent(l: Lista, id: ProductoId)
    ensures AnadirProducto(AnadirProducto(l, id), id) == AnadirProducto(l, id)
  {
  }

  /** A new id goes to the end of the array; the ids already there do not move. */
  lemma AnadirAppends(l: Lista, id: ProductoId)
    requires !EstaEnLista(l, id)
    ensures ListaComoArray(AnadirProducto(l, id)) == ListaComoArray(l) + [id]
    ensures TotalProductos(AnadirProducto(l, id)) == TotalProductos(l) + 1
  {
  }

  /** Removing an id takes out its one entry and leaves the others in their order. */
  lemma QuitarKeepsOrder(l: Lista, id: ProductoId)
    requires EstaEnLista(l, id)
    ensures exists k :: (0 <= k < |l| && l[k] == id &&
      ListaComoArray(QuitarProducto(l, id)) == l[..k] + l[k + 1..])
  {
    JsSet.DeleteKeepsOrder(l, id);
    var k := JsSet.IndexOf(l, id);
    assert l[k] == id;
  }

  /** Toggling twice restores the membership of every id. */
  lemma AlternarTwiceSameIds(l: Lista, id: ProductoId, other: ProductoId)
    ensures EstaEnLista(AlternarProducto(AlternarProducto(l, id), id), other) <==> EstaEnLista(l, other)
  {
  }

  /** Toggling an absent id twice gives back the very same list ... */
  lemma AlternarTwiceAbsent(l: Lista, id: ProductoId)
    requires !EstaEnLista(l, id)
    ensures AlternarProducto(AlternarProducto(l, id), id) == l
  {
    var l1 := AnadirProducto(l, id);
    assert l1 == l + [id];
    JsSet.DeleteKeepsOrder(l1, id);
    assert JsSet.IndexOf(l1, id) == |l|;
  }

  /** ... but a present id comes back at the end of the insertion order. */
  lemma AlternarTwicePresent(l: Lista, id: ProductoId)
    requires EstaEnLista(l, id)
    ensures ListaComoArray(AlternarProducto(AlternarProducto(l, id), id))
         == ListaComoArray(QuitarProducto(l, id)) + [id]
  {
    AnadirAppends(QuitarProducto(l, id), id);
  }

  /** On the empty list one toggle leaves exactly that id, and a second one empties it again. */
  lemma AlternarOnEmpty(id: ProductoId)
    ensures ListaComoArray(AlternarProducto(Vacia, id)) == [id]
    ensures AlternarProducto(AlternarProducto(Vacia, id), id) == Vacia
  {
    AlternarTwiceAbsent(Vacia, id);
  }
}

=== FILE: router.dfy ===
/** The navigation rules: the global session guard, the admin index redirect and the public
    layout's pre-entry hook. The session lookup is the `hasSession` parameter. */
module Router {
  import JsString
  import SiteConfig

  const AdminPrefix: string := "/admin"
  const LoginPath: string := "/login"

  /** What a guard hands to `next`: go on, or go somewhere else instead. */
  datatype Decision = Proceed | RedirectTo(path: string)

  /** The global `beforeEach` guard. */
  function BeforeEach(path: string, hasSession: bool): (d: Decision)
    ensures d.RedirectTo? ==> d.path == LoginPath
  {
    if JsString.StartsWith(path, AdminPrefix) && !hasSession then RedirectTo(LoginPath) else Proceed
  }

  /** Without a session, a path under '/admin' is sent to the login page; with one it proceeds. */
  lemma AdminNeedsSession(path: string, hasSession: bool)
    requires JsString.StartsWith(path, AdminPrefix)
    ensures BeforeEach(path, hasSession) == if hasSession then Proceed else RedirectTo(LoginPath)
  {
  }

  /** A path that does not start with '/admin' proceeds, session or not. */
  lemma PublicPathsProceed(path: string, hasSession: bool)
    requires !JsString.StartsWith(path, AdminPrefix)
    ensures BeforeEach(path, hasSession) == Proceed
  {
  }

  /** The gate is a plain prefix test: '/administracion' is gated as well. */
  lemma PrefixGatesLongerNames()
    ensures BeforeEach("/administracion", false) == RedirectTo(LoginPath)
  {
    assert "/administracion"[..6] == AdminPrefix;
  }

  /** The login page and the shared catalogue pages always proceed, so the redirect cannot loop. */
  lemma RedirectTargetProceeds(hasSession: bool, slug: string)
    ensures BeforeEach(LoginPath, hasSession) == Proceed
    ensures BeforeEach("/c/" + slug, hasSession) == Proceed
  {
    assert LoginPath[..6] != AdminPrefix by { assert LoginPath[1] != AdminPrefix[1]; }
    var p := "/c/" + slug;
    if |p| >= 6 {
      assert p[1] == 'c';
      assert p[..6] != AdminPrefix by { assert p[..6][1] != AdminPrefix[1]; }
    }
  }

  /** The redirect of the admin layout's empty child path. */
  function AdminIndexRedirect(path: string): (r: string)
    ensures path != AdminPrefix ==> r == path
  {
    if path == AdminPrefix then "/admin/productos" else path
  }

  /** '/admin' leads to '/admin/productos', which is still behind the session gate. */
  lemma AdminIndexStaysGated(hasSession: bool)
    ensures AdminIndexRedirect(AdminPrefix) == "/admin/productos"
    ensures BeforeEach(AdminIndexRedirect(AdminPrefix), hasSession)
         == if hasSession then Proceed else RedirectTo(LoginPath)
  {
    assert "/admin/productos"[..6] == AdminPrefix;
  }

  /** What the public layout's `beforeEnter` did: the config state afterwards, whether it called
      `fetchConfig`, and what it handed to `next`. */
  datatype HookResult = HookResult(config: SiteConfig.ConfigState, calledFetch: bool, decision: Decision)

  /** The public layout's `beforeEnter`: calls `fetchConfig` only when no config is loaded, waits
      for it, then proceeds whatever the outcome. */
  function PublicBeforeEnter(s: SiteConfig.ConfigState, reply: SiteConfig.ConfigReply): (r: HookResult)
    ensures r.decision == Proceed
    ensures r.calledFetch <==> !SiteConfig.Truthy(s.config)
    ensures !r.calledFetch ==> r.config == s
    ensures r.calledFetch && !s.loading ==> !r.config.loading
  {
    if !SiteConfig.Truthy(s.config) then HookResult(SiteConfig.FetchConfig(s, reply), true, Proceed)
    else HookResult(s, false, Proceed)
  }

  /** When another query is already in flight the hook does not wait for it: it proceeds with the
      config still unset. */
  lemma HookDoesNotWaitForInFlightQuery(s: SiteConfig.ConfigState, reply: SiteConfig.ConfigReply)
    requires s.loading && !SiteConfig.Truthy(s.config)
    ensures PublicBeforeEnter(s, reply).config == s
    ensures !SiteConfig.Truthy(PublicBeforeEnter(s, reply).config.config)
  {
  }

  // ---------------------------------------------------------------------------------------------
  // Case of the admin prefix

  /** The child paths of the admin route record without parameters, after '/admin'; the empty one
      is the index that redirects. */
  const AdminChildPaths: set<string> :=
    {"", "/configuracion", "/productos", "/productos/nuevo", "/productos/importar", "/catalogos",
     "/catalogos/nuevo"}

  /** One `:id` segment: non-empty and free of '/'. */
  predicate IsSegment(s: string)
  {
    |s| > 0 && forall i :: 0 <= i < |s| ==> s[i] != '/'
  }

  /** `rest` is `stem` followed by one `:id` segment. */
  predicate IdChild(rest: string, stem: string)
  {
    JsString.StartsWith(rest, stem) && IsSegment(rest[|stem|..])
  }

  /** `rest`, the part after '/admin', names one of the admin record's children. */
  predicate AdminChild(rest: string)
  {
    || rest in AdminChildPaths
    || IdChild(rest, "/productos/editar/")
    || IdChild(rest, "/catalogos/editar/")
  }

  /** The paths the admin route record and its children match, under the router's defaults:
      letters compared without case (`sensitive: false`) and one trailing '/' allowed
      (`strict: false`). It matches whole segments only: after '/admin' comes the end of the path
      or a '/', so '/administracion' is not one of its paths. */
  predicate MatchesAdminRecord(path: string): (b: bool)
    ensures b ==> JsString.StartsWith(JsString.ToLower(path), AdminPrefix)
    ensures b ==> |path| == |AdminPrefix| || JsString.ToLower(path)[|AdminPrefix|] == '/'
  {
    var lower := JsString.ToLower(path);
    if !JsString.StartsWith(lower, AdminPrefix) then false
    else
      var rest := lower[|AdminPrefix|..];
      AdminChildLeadingSlash(rest);
      if |rest| > 0 && rest[|rest| - 1] == '/' then
        AdminChildLeadingSlash(rest[..|rest| - 1]);
        AdminChild(rest) || AdminChild(rest[..|rest| - 1])
      else
        AdminChild(rest)
  }

  /** Every child path is empty or starts a new segment. */
  lemma AdminChildLeadingSlash(rest: string)
    ensures AdminChild(rest) ==> rest == "" || rest[0] == '/'
  {
    if rest in AdminChildPaths && rest != "" {
      assert forall c :: c in AdminChildPaths && c != "" ==> c[0] == '/';
    } else if IdChild(rest, "/productos/editar/") {
      assert rest[0] == "/productos/editar/"[0];
    } else if IdChild(rest, "/catalogos/editar/") {
      assert rest[0] == "/catalogos/editar/"[0];
    }
  }

  /** As written, the guard compares case-sensitively, so '/ADMIN/productos' renders the admin
      products page without a session. */
  lemma MixedCaseAdminPathBypassesGuard()
    ensures MatchesAdminRecord("/ADMIN/productos")
    ensures BeforeEach("/ADMIN/productos", false) == Proceed
  {
    var child := "/productos";
    assert child in AdminChildPaths;
    assert "/ADMIN/productos" == "/ADMIN" + child;
    UpperCaseAdminPathsBypassGuard(child);
  }

  /** Every child of the admin record other than the index, written in lower case after the
      upper-case spelling '/ADMIN', matches the record yet proceeds without a session. (The index
      '/ADMIN' itself is redirected to '/admin/productos' before any guard runs.) */
  lemma UpperCaseAdminPathsBypassGuard(child: string)
    requires AdminChild(child) && child != ""
    requires forall i :: 0 <= i < |child| ==> JsString.LowerChar(child[i]) == child[i]
    ensures MatchesAdminRecord("/ADMIN" + child)
    ensures BeforeEach("/ADMIN" + child, false) == Proceed
  {
    var path := "/ADMIN" + child;
    assert path[1] == 'A' && path[1] != AdminPrefix[1];
    var lower := JsString.ToLower(path);
    LowerUpperAdmin(child);
    assert lower[..|AdminPrefix|] == AdminPrefix;
    assert lower[|AdminPrefix|..] == child;
  }

  /** Lowering '/ADMIN' followed by a lower-case child gives '/admin' followed by the child. */
  lemma LowerUpperAdmin(child: string)
    requires forall i :: 0 <= i < |child| ==> JsString.LowerChar(child[i]) == child[i]
    ensures JsString.ToLower("/ADMIN" + child) == AdminPrefix + child
  {
    JsString.ToLowerAppend("/ADMIN", child);
    LowerAdminWord();
    assert JsString.ToLower(child) == child;
  }

  lemma LowerAdminWord()
    ensures JsString.ToLower("/ADMIN") == AdminPrefix
  {
    var w := "/ADMIN";
    var lower := JsString.ToLower(w);
    assert JsString.LowerChar('/') == '/';
    assert JsString.LowerChar('A') == 'a';
    assert JsString.LowerChar('D') == 'd';
    assert JsString.LowerChar('M') == 'm';
    assert JsString.LowerChar('I') == 'i';
    assert JsString.LowerChar('N') == 'n';
    assert lower[0] == '/' && lower[1] == 'a' && lower[2] == 'd';
    assert lower[3] == 'm' && lower[4] == 'i' && lower[5] == 'n';
  }

  /** The guard with the prefix compared on the lowered path. */
  function BeforeEachCaseInsensitive(path: string, hasSession: bool): (d: Decision)
    ensures d.RedirectTo? ==> d.path == LoginPath
  {
    if JsString.StartsWith(JsString.ToLower(path), AdminPrefix) && !hasSession then RedirectTo(LoginPath)
    else Proceed
  }

  /** Every path the admin record matches needs a session, whatever its case, and the guard agrees
      with the original one on lower-case paths. */
  lemma CaseInsensitiveGuardCoversAdminRecord(path: string, hasSession: bool)
    ensures MatchesAdminRecord(path) && !hasSession ==>
              BeforeEachCaseInsensitive(path, hasSession) == RedirectTo(LoginPath)
    ensures JsString.ToLower(path) == path ==>
              BeforeEachCaseInsensitive(path, hasSession) == BeforeEach(path, hasSession)
  {
  }

  /** The login page and every shared catalogue page, whatever the case of its slug, still proceed
      under the corrected guard, so its redirect cannot loop either. */
  lemma CaseInsensitiveRedirectTargetProceeds(hasSession: bool, slug: string)
    ensures BeforeEachCaseInsensitive(LoginPath, hasSession) == Proceed
    ensures BeforeEachCaseInsensitive("/c/" + slug, hasSession) == Proceed
  {
    var login := JsString.ToLower(LoginPath);
    assert LoginPath[1] == 'l';
    assert login[1] == 'l';
    assert login[..6] != AdminPrefix by { assert login[..6][1] != AdminPrefix[1]; }
    var p := "/c/" + slug;
    var lower := JsString.ToLower(p);
    if |p| >= 6 {
      assert p[1] == 'c';
      assert lower[1] == 'c';
      assert lower[..6] != AdminPrefix by { assert lower[..6][1] != AdminPrefix[1]; }
    }
  }
}

=== FILE: site_config.dfy ===
/** The site-configuration loader: one process-wide cache of the `config_json` blob with a busy
    flag and an error slot. `fetchConfig` is split into its synchronous start and its completion
    when the store replies, so that calls made while a query is outstanding can be modelled. */
module SiteConfig {
  import opened Wrappers

  /** The configuration blob: whatever JSON the `config_json` column holds. */
  datatype Json =
    | JNull
    | JBool(b: bool)
    | JNumber(n: int)
    | JString(s: string)
    | JArray(items: seq<Json>)
    | JObject(members: seq<(string, Json)>)

  /** JavaScript truthiness: null, false, 0 and "" are falsy; arrays and objects are truthy. */
  predicate Truthy(j: Json)
  {
    match j
    case JNull => false
    case JBool(b) => b
    case JNumber(n) => n != 0
    case JString(s) => s != ""
    case _ => true
  }

  /** `siteConfig`, `loading` and `error`. */
  datatype ConfigState = ConfigState(config: Json, loading: bool, error: Option<string>)

  const InitialConfigState := ConfigState(JNull, false, None)

  /** What the single-row query hands back: the row, neither a row nor an error, or an error. The
      query reports a missing row as an error, so `NoData` is the reply that carries nothing. */
  datatype ConfigReply =
    | Row(configJson: Json)
    | NoData
    | Failed(message: string)

  /** The guard at the top of `fetchConfig`: a truthy config or a query in flight means nothing to do. */
  predicate FetchSkipped(s: ConfigState)
  {
    Truthy(s.config) || s.loading
  }

  /** The synchronous part of `fetchConfig`: either it returns at once, or it raises the busy flag
      and issues the query (`issued`). */
  datatype StartResult = StartResult(state: ConfigState, issued: bool)

  function StartFetch(s: ConfigState): (r: StartResult)
    ensures r.issued <==> !FetchSkipped(s)
    ensures !r.issued ==> r.state == s
    ensures r.issued ==> r.state.loading && r.state.config == s.config && r.state.error == s.error
  {
    if Truthy(s.config) || s.loading then StartResult(s, false)
    else StartResult(s.(loading := true), true)
  }

  /** The rest of `fetchConfig`, once the reply is in. */
  function CompleteFetch(s: ConfigState, reply: ConfigReply): (r: ConfigState)
    ensures !r.loading
    ensures reply.Row? ==> r.config == reply.configJson && r.error == s.error
    ensures reply.NoData? ==> r.config == s.config && r.error == s.error
    ensures reply.Failed? ==> r.config == s.config && r.error == Some(reply.message)
    ensures s.error.Some? ==> r.error.Some?
  {
    match reply
    case Row(configJson) => s.(config := configJson, loading := false)
    case NoData => s.(loading := false)
    case Failed(message) => s.(error := Some(message), loading := false)
  }

  /** A whole `fetchConfig` call that is not interleaved with any other. */
  function FetchConfig(s: ConfigState, reply: ConfigReply): (r: ConfigState)
    ensures FetchSkipped(s) ==> r == s
    ensures !FetchSkipped(s) ==> !r.loading
    ensures !FetchSkipped(s) && reply.Row? ==> r.config == reply.configJson
    ensures reply.Failed? ==> r.config == s.config
    ensures Truthy(s.config) ==> r.config == s.config
    ensures s.error.Some? ==> r.error.Some?
  {
    var started := StartFetch(s);
    if started.issued then CompleteFetch(started.state, reply) else s
  }

  /** A fetch that leaves the config falsy (an empty reply, a failure, or a row whose `config_json` is
      null, false, 0 or "") leaves the guard open, so the next call queries again. */
  lemma UnsetConfigRefetches(s: ConfigState, reply: ConfigReply)
    requires !Truthy(s.config)
    requires reply.NoData? || reply.Failed? || !Truthy(reply.configJson)
    ensures !Truthy(FetchConfig(s, reply).config)
    ensures StartFetch(FetchConfig(s, reply)).issued <==> !s.loading
  {
  }

  // ---------------------------------------------------------------------------------------------
  // Interleaved calls

  /** The loader seen from outside: its state, the queries still outstanding and the queries
      issued so far. */
  datatype Loader = Loader(state: ConfigState, inFlight: nat, issued: nat)

  const InitialLoader := Loader(InitialConfigState, 0, 0)

  /** A caller invokes `fetchConfig`, or the oldest outstanding query replies. */
  datatype Event = Call | Reply(reply: ConfigReply)

  /** One event: a call issues a query exactly when `fetchConfig`'s guard lets it through and is
      otherwise a no-op; a reply issues nothing, and one with nothing outstanding is ignored. */
  function Step(l: Loader, e: Event): (r: Loader)
    ensures e.Call? ==> (r.issued == l.issued + 1 <==> !FetchSkipped(l.state))
    ensures e.Call? && FetchSkipped(l.state) ==> r == l
    ensures e.Reply? ==> r.issued == l.issued
    ensures e.Reply? && l.inFlight == 0 ==> r == l
    ensures e.Reply? && l.inFlight > 0 ==> !r.state.loading && r.inFlight == l.inFlight - 1
  {
    match e
    case Call =>
      var started := StartFetch(l.state);
      if started.issued then Loader(started.state, l.inFlight + 1, l.issued + 1) else l
    case Reply(reply) =>
      if l.inFlight == 0 then l
      else Loader(CompleteFetch(l.state, reply), l.inFlight - 1, l.issued)
  }

  /** A sequence of events, in order: each event issues at most one query. */
  function Run(l: Loader, events: seq<Event>): (r: Loader)
    ensures l.issued <= r.issued <= l.issued + |events|
    decreases |events|
  {
    if |events| == 0 then l else Run(Step(l, events[0]), events[1..])
  }

  /** At most one query is ever outstanding, the busy flag is up exactly while one is, and a
      truthy config means none is. */
  predicate Invariant(l: Loader)
  {
    && l.inFlight <= 1
    && (l.state.loading <==> l.inFlight == 1)
    && (Truthy(l.state.config) ==> l.inFlight == 0)
  }

  lemma StepKeepsInvariant(l: Loader, e: Event)
    requires Invariant(l)
    ensures Invariant(Step(l, e))
  {
  }

  /** Whatever the calls and replies, at most one query is in flight at any time. */
  lemma {:induction false} RunKeepsInvariant(l: Loader, events: seq<Event>)
    requires Invariant(l)
    ensures Invariant(Run(l, events))
    ensures Run(l, events).inFlight <= 1
    decreases |events|
  {
    if |events| > 0 {
      StepKeepsInvariant(l, events[0]);
      RunKeepsInvariant(Step(l, events[0]), events[1..]);
    }
  }

  /** The module-level state starts idle with nothing loaded, so from the first page load on at
      most one query is ever in flight, and `loading` is up exactly while one is. */
  lemma OneQueryFromStart(events: seq<Event>)
    ensures Invariant(InitialLoader)
    ensures Run(InitialLoader, events).inFlight <= 1
    ensures Run(InitialLoader, events).state.loading <==> Run(InitialLoader, events).inFlight == 1
  {
    RunKeepsInvariant(InitialLoader, events);
  }

  function Calls(n: nat): (r: seq<Event>)
    ensures |r| == n
    ensures forall i :: 0 <= i < n ==> r[i] == Call
  {
    if n == 0 then [] else [Call] + Calls(n - 1)
  }

  /** Any number of calls made before the store replies issue exactly one query. */
  lemma {:induction false} CallsBeforeReplyIssueOneQuery(l: Loader, n: nat)
    requires Invariant(l) && !FetchSkipped(l.state)
    requires n >= 1
    ensures Run(l, Calls(n)).issued == l.issued + 1
    ensures Run(l, Calls(n)).inFlight == 1
  {
    var l1 := Step(l, Call);
    assert Calls(n)[1..] == Calls(n - 1);
    CallsWhileBusyDoNothing(l1, n - 1);
  }

  /** However many components call `fetchConfig` before the first reply, one query is issued. */
  lemma FirstCallsIssueOneQuery(n: nat)
    requires n >= 1
    ensures Run(InitialLoader, Calls(n)).issued == 1
  {
    CallsBeforeReplyIssueOneQuery(InitialLoader, n);
  }

  lemma {:induction false} CallsWhileBusyDoNothing(l: Loader, n: nat)
    requires FetchSkipped(l.state)
    ensures Run(l, Calls(n)) == l
    decreases n
  {
    if n > 0 {
      assert Calls(n)[1..] == Calls(n - 1);
      CallsWhileBusyDoNothing(l, n - 1);
    }
  }

  /** Once the config is truthy, no later call or reply changes it. */
  lemma {:induction false} TruthyConfigIsFinal(l: Loader, events: seq<Event>)
    requires Invariant(l) && Truthy(l.state.config)
    ensures Run(l, events).state.config == l.state.config
    decreases |events|
  {
    if |events| > 0 {
      StepKeepsInvariant(l, events[0]);
      TruthyConfigIsFinal(Step(l, events[0]), events[1..]);
    }
  }

  /** Once an error is recorded, no later call or reply clears it. */
  lemma {:induction false} ErrorIsNeverCleared(l: Loader, events: seq<Event>)
    requires l.state.error.Some?
    ensures Run(l, events).state.error.Some?
    decreases |events|
  {
    if |events| > 0 {
      ErrorIsNeverCleared(Step(l, events[0]), events[1..]);
    }
  }
}

=== FILE: stable_sort.dfy ===
/** `Array.prototype.sort(cmp)`: section 23.1.3 of ECMA-262 requires the sort to be stable, and for a
    consistent comparator the stable sorted permutation is unique, so an insertion sort computes
    the same array as any engine. `cmp(a, b) <= 0` means "a may come before b". */
module StableSort {

  /** `a` may come before `b`, or `b` before `a`. */
  ghost predicate Comparable<T>(cmp: (T, T) -> int, a: T, b: T)
  {
    cmp(a, b) <= 0 || cmp(b, a) <= 0
  }

  /** "May come before" is transitive through `b`. */
  ghost predicate Chains<T>(cmp: (T, T) -> int, a: T, b: T, c: T)
  {
    cmp(a, b) <= 0 && cmp(b, c) <= 0 ==> cmp(a, c) <= 0
  }

  /** `a` comes strictly before `b` exactly when `b` comes strictly after `a`. */
  ghost predicate Mirrors<T>(cmp: (T, T) -> int, a: T, b: T)
  {
    cmp(a, b) < 0 <==> cmp(b, a) > 0
  }

  /** The comparator is consistent in the sense of section 23.1.3 of ECMA-262: `cmp(a, b) <= 0`
      is a total preorder, and the signs of `cmp(a, b)` and `cmp(b, a)` mirror each other. Proofs
      name the instances they use through `Comparable`, `Chains` and `Mirrors`. */
  ghost predicate Consistent<T(!new)>(cmp: (T, T) -> int)
  {
    && (forall a, b :: Comparable(cmp, a, b))
    && (forall a, b, c :: Chains(cmp, a, b, c))
    && (forall a, b :: Mirrors(cmp, a, b))
  }

  predicate Ordered<T>(s: seq<T>, cmp: (T, T) -> int)
  {
    forall i, j :: 0 <= i < j < |s| ==> cmp(s[i], s[j]) <= 0
  }

  /** `a` and `b` compare as equal. */
  predicate Tied<T>(cmp: (T, T) -> int, a: T, b: T)
  {
    cmp(a, b) <= 0 && cmp(b, a) <= 0
  }

  /** The elements of `s` that compare equal to `x`, in their order in `s`. */
  function Ties<T>(s: seq<T>, cmp: (T, T) -> int, x: T): seq<T>
  {
    if |s| == 0 then [] else (if Tied(cmp, s[0], x) then [s[0]] else []) + Ties(s[1..], cmp, x)
  }

  /** The index where `x` is inserted: before the first element that compares greater than it. */
  function InsertPos<T>(x: T, s: seq<T>, cmp: (T, T) -> int): (k: nat)
    ensures k <= |s|
    ensures forall i :: 0 <= i < k ==> cmp(s[i], x) <= 0
    ensures k < |s| ==> cmp(s[k], x) > 0
  {
    if |s| == 0 || cmp(s[0], x) > 0 then 0 else 1 + InsertPos(x, s[1..], cmp)
  }

  /** One step of insertion sort: `x` goes after every element that does not compare greater. */
  function Insert<T>(x: T, s: seq<T>, cmp: (T, T) -> int): (r: seq<T>)
    ensures |r| == |s| + 1
    ensures multiset(r) == multiset(s) + multiset{x}
  {
    var k := InsertPos(x, s, cmp);
    assert s == s[..k] + s[k..];
    s[..k] + [x] + s[k..]
  }

  /** The result is a permutation of the input. */
  function Sort<T>(s: seq<T>, cmp: (T, T) -> int): (r: seq<T>)
    ensures multiset(r) == multiset(s)
    ensures |r| == |s|
  {
    if |s| == 0 then []
    else
      var init, last := s[..|s| - 1], s[|s| - 1];
      assert s == init + [last];
      Insert(last, Sort(init, cmp), cmp)
  }

  lemma InsertOrdered<T(!new)>(x: T, s: seq<T>, cmp: (T, T) -> int)
    requires Consistent(cmp)
    requires Ordered(s, cmp)
    ensures Ordered(Insert(x, s, cmp), cmp)
  {
    SpliceOrdered(x, s, InsertPos(x, s, cmp), cmp);
  }

  /** Putting `x` after the elements that do not exceed it, and before one that does, keeps an
      ordered sequence ordered. */
  lemma SpliceOrdered<T(!new)>(x: T, s: seq<T>, k: nat, cmp: (T, T) -> int)
    requires Consistent(cmp)
    requires Ordered(s, cmp)
    requires k <= |s|
    requires forall i :: 0 <= i < k ==> cmp(s[i], x) <= 0
    requires k < |s| ==> cmp(s[k], x) > 0
    ensures Ordered(s[..k] + [x] + s[k..], cmp)
  {
    var r := s[..k] + [x] + s[k..];
    assert forall i :: 0 <= i < k ==> r[i] == s[i];
    assert r[k] == x;
    assert forall i :: k < i < |r| ==> r[i] == s[i - 1];
    forall i, j | 0 <= i < j < |r|
      ensures cmp(r[i], r[j]) <= 0
    {
      if j <= k {
      } else if i < k {
        assert cmp(s[i], s[j - 1]) <= 0;
      } else if i == k {
        assert Comparable(cmp, s[k], x);
        assert Chains(cmp, x, s[k], s[j - 1]);
      } else {
        assert cmp(s[i - 1], s[j - 1]) <= 0;
      }
    }
  }

  /** The result is ordered by the comparator. */
  lemma {:induction false} SortOrdered<T(!new)>(s: seq<T>, cmp: (T, T) -> int)
    requires Consistent(cmp)
    ensures Ordered(Sort(s, cmp), cmp)
    decreases |s|
  {
    if |s| > 0 {
      SortOrdered(s[..|s| - 1], cmp);
      InsertOrdered(s[|s| - 1], Sort(s[..|s| - 1], cmp), cmp);
    }
  }

  lemma {:induction false} TiesAppend<T>(a: seq<T>, b: seq<T>, cmp: (T, T) -> int, x: T)
    ensures Ties(a + b, cmp, x) == Ties(a, cmp, x) + Ties(b, cmp, x)
    decreases |a|
  {
    if |a| == 0 {
      assert a + b == b;
    } else {
      var ab := a + b;
      var head := if Tied(cmp, a[0], x) then [a[0]] else [];
      assert ab[0] == a[0];
      assert ab[1..] == a[1..] + b;
      calc {
        Ties(ab, cmp, x);
        head + Ties(a[1..] + b, cmp, x);
        { TiesAppend(a[1..], b, cmp, x); }
        head + (Ties(a[1..], cmp, x) + Ties(b, cmp, x));
        Ties(a, cmp, x) + Ties(b, cmp, x);
      }
    }
  }

  lemma {:induction false} NoTies<T>(s: seq<T>, cmp: (T, T) -> int, x: T)
    requires forall i :: 0 <= i < |s| ==> !Tied(cmp, s[i], x)
    ensures Ties(s, cmp, x) == []
    decreases |s|
  {
    if |s| > 0 {
      NoTies(s[1..], cmp, x);
    }
  }

  /** In an ordered sequence, everything from an element above `y` onwards is above `y`, so none
      of it ties with anything `y` ties with. */
  lemma AboveNotTied<T(!new)>(y: T, s: seq<T>, k: nat, cmp: (T, T) -> int, x: T)
    requires Consistent(cmp)
    requires Ordered(s, cmp)
    requires k < |s| && cmp(s[k], y) > 0
    requires Tied(cmp, y, x)
    ensures Ties(s[k..], cmp, x) == []
  {
    forall i | 0 <= i < |s[k..]|
      ensures !Tied(cmp, s[k..][i], x)
    {
      var e := s[k + i];
      assert s[k..][i] == e;
      assert Chains(cmp, e, x, y);
      assert i == 0 || cmp(s[k], e) <= 0;
      assert Chains(cmp, s[k], e, y);
    }
    NoTies(s[k..], cmp, x);
  }

  lemma SwapEmpty<T>(a: seq<T>, b: seq<T>, c: seq<T>)
    requires b == [] || c == []
    ensures (a + b) + c == a + c + b
  {
  }

  /** Putting `y` at index `k` of `s` appends it to the ties, provided nothing after index `k` ties. */
  lemma TiesSplice<T>(y: T, s: seq<T>, k: nat, cmp: (T, T) -> int, x: T)
    requires k <= |s|
    requires Ties(s[k..], cmp, x) == [] || Ties([y], cmp, x) == []
    ensures Ties(s[..k] + [y] + s[k..], cmp, x) == Ties(s, cmp, x) + Ties([y], cmp, x)
  {
    var front, back := s[..k], s[k..];
    var tf, tb, ty := Ties(front, cmp, x), Ties(back, cmp, x), Ties([y], cmp, x);
    SwapEmpty(tf, ty, tb);
    calc {
      Ties(front + [y] + back, cmp, x);
      { TiesAppend(front + [y], back, cmp, x); TiesAppend(front, [y], cmp, x); }
      (tf + ty) + tb;
      tf + tb + ty;
      { assert s == front + back; TiesAppend(front, back, cmp, x); }
      Ties(s, cmp, x) + ty;
    }
  }

  /** Inserting `y` into an ordered sequence puts it after all the elements tied with it. */
  lemma InsertTies<T(!new)>(y: T, s: seq<T>, cmp: (T, T) -> int, x: T)
    requires Consistent(cmp)
    requires Ordered(s, cmp)
    ensures Ties(Insert(y, s, cmp), cmp, x) == Ties(s, cmp, x) + Ties([y], cmp, x)
  {
    var k := InsertPos(y, s, cmp);
    if Tied(cmp, y, x) && k < |s| {
      AboveNotTied(y, s, k, cmp, x);
    } else if k == |s| {
      assert s[k..] == [];
    } else {
      assert [y][1..] == [];
    }
    TiesSplice(y, s, k, cmp, x);
  }

  /** Stability: the elements tied with any `x` keep their relative input order. */
  lemma {:induction false} SortStable<T(!new)>(s: seq<T>, cmp: (T, T) -> int, x: T)
    requires Consistent(cmp)
    ensures Ties(Sort(s, cmp), cmp, x) == Ties(s, cmp, x)
    decreases |s|
  {
    if |s| > 0 {
      var init, last := s[..|s| - 1], s[|s| - 1];
      assert s == init + [last];
      calc {
        Ties(Sort(s, cmp), cmp, x);
        Ties(Insert(last, Sort(init, cmp), cmp), cmp, x);
        { SortOrdered(init, cmp); InsertTies(last, Sort(init, cmp), cmp, x); }
        Ties(Sort(init, cmp), cmp, x) + Ties([last], cmp, x);
        { SortStable(init, cmp, x); }
        Ties(init, cmp, x) + Ties([last], cmp, x);
        { TiesAppend(init, [last], cmp, x); }
        Ties(s, cmp, x);
      }
    }
  }
}

=== FILE: wrappers.dfy ===
/** A JavaScript value that may be null or undefined, and the store's reply shapes use it too. */
module Wrappers {

  datatype Option<+T> = None | Some(value: T)

}
